=== FILE: README.md ===
# Walk game: a verified model of the per-frame update

`dog_test.py` is a small pyxel game. A dog walks down a three-lane road between
two walls. It dodges falling obstacles and picks up trash bags, which relieve a
rising poop gauge. It also picks up power items, which let it shoot obstacles,
and flashlight items. Meanwhile a day/night cycle runs, the road speeds up, and
a progress counter climbs towards a goal. When the goal is reached, a door comes
down, opens, takes the dog in and closes. Then the clear screen shows.

This project models the game state of the `WalkGame` class in Dafny and proves
its invariants:

- `update`, one frame, in every phase: title, game over, clear screen, clear
  sequence and play.
- `is_space_clear`, the test that decides where something may spawn.
- `reset_game`.
- The start values set in the constructor.

Drawing is not part of the model.

The modules follow the structure of the frame:

| module | file | what it holds |
|---|---|---|
| `Entities` | entities.dfy | positions on the road; the advance/cull pass of the four entity lists; touch counting; healing |
| `Spawning` | spawning.dfy | `is_space_clear`; the list of clear lanes; the spawn interval |
| `Shots` | shots.dfy | bullets, and how they destroy obstacles |
| `DayNight` | day_night.dfy | the day/night phase and its two speeds |
| `ClearSequence` | clear_sequence.dfy | the six-state door animation |
| `Game` | walk_game.dfy | the `WalkGame` class: its state, `update`, `reset_game` and the steps of a play frame |

`WalkGame` keeps the 35 attributes that `update` and `reset_game` change,
other than `item_spawn_timer` (see Left out). They are grouped into nine fields
by what they describe, and each group is a record whose fields carry the
attribute names:

| field | group | attributes |
|---|---|---|
| `dog` | `Dog` | `pet_x`, `pet_y`, `pet_vx`, `stamina_gauge` |
| `sky` | `Sky` | `day_cycle`, `is_darkening`, `day_speed`, `night_speed` |
| `road` | `Road` | the four entity lists |
| `meters` | `Meters` | `poop_gauge`, the two multipliers, `speed`, `score`, `progress` |
| `gun` | `Gun` | `has_power`, `power_timer`, `bullets`, `reload_timer` |
| `light` | `Light` | `has_flashlight`, `fl_timer` |
| `door` | `Door` | the clear-sequence attributes and `show_clear_screen` |
| `phase` | `Phase` | `game_started`, `game_over`, `game_over_reason`, `is_cleared`, `title_pet_rotation` |
| `poopList` | `seq<Mark>` | the marks of the clear screen |

Attributes that are never reassigned are module constants: speeds, walls, lane
centres, durations and the goal.

The frame's inputs are parameters of `Update`:

- `Keys` holds the keys: pressed this frame (S, R, P, SPACE) or held (SHIFT,
  LEFT, RIGHT).
- `frame` is pyxel's frame counter.
- `Draws` holds the values the random generator returns this frame. `DrawsOk`
  states their ranges:
  - the lane is an index among the clear lanes;
  - `rndi(0, 20)` and `rndi(0, 1)` for the entity type;
  - `rndf(0.001, 0.005)` for the next day or night speed;
  - the size and place of a clear-screen mark.

Floats are `real`.

The power and the flashlight both end on the tick their timer reaches 0. Each
timer counts down only while its effect is on (`Game.TimedGun`,
`Game.TimedLight`).

The invariant `Valid()` (`Game.SessionOk`) holds between frames:

- the dog is between the walls (20 and 130);
- the sky phase is in its band;
- `1 <= speed <= 4.005`;
- the gauges and multipliers are non-negative;
- every timer is in range, and an active power or flashlight has a positive
  timer;
- `is_cleared` holds exactly when `progress >= 500`;
- the door is shut and the dog is on row 100 until then;
- the door scene satisfies `ClearSequence.SceneOk`.

The constructor establishes the invariant, and every phase of `Update`
preserves it.

## Model

| member | source | states |
|---|---|---|
| `Spawning.FindBlocker` | dog_test.py:82-84 | one scan of `is_space_clear`: true exactly when some entity of the list is at most 40 away sideways and less than 40 away vertically |
| `Spawning.IsSpaceClear` | dog_test.py:80-96 | false exactly when some obstacle, trash bag, power item or flashlight item blocks (x, y); true otherwise |
| `Spawning.ClearLanesBelow` | dog_test.py:220-223 | every lane collected below n is below n |
| `Spawning.ClearLanes` | dog_test.py:220-223 | every collected lane is one of the three lanes |
| `Spawning.ClearLanesBelowSpec` | dog_test.py:220-223 | the collected lanes are strictly increasing, at most n, and a lane is collected exactly when its centre at y = 0 is clear |
| `Spawning.AvailableLanes` | dog_test.py:220-223 | the lane loop returns exactly the lanes whose centre is clear, in increasing order |
| `Spawning.SpawnInterval` | dog_test.py:215-216 | the interval is at least 10; 30 / speed is below the interval plus one; above 10 the interval is the integer part of 30 / speed |
| `Spawning.SpawnIntervalShrinks` | dog_test.py:215-216 | a higher speed never gives a longer interval |
| `Spawning.SpawnIntervalRange` | dog_test.py:215-216 | from speed 1 on, the interval is between 10 and 30 frames |
| `Entities.SurvivorsSpec` | dog_test.py:263-297 | after a pass, a list holds exactly the advanced entities that are still on the screen and, for pickups, were not touched, each no more often than among the advanced entities (`Moved`); it never grows |
| `Entities.TouchedSpec` | dog_test.py:263-297 | the touch count is positive exactly when some advanced entity is within 12 of the dog on both axes |
| `Entities.HealAgain` | dog_test.py:277-278 | healing k + 1 times with the floor at 0 equals one more floored heal after k; the gauge stays non-negative |
| `Entities.RemoveFirst` | dog_test.py:266 | `list.remove` on a value that is present (absent, Python raises `ValueError`; the one use removes the entry it just moved, so it is always present): exactly the first equal entry goes, and the entries before and after it keep their order |
| `Entities.FirstIndex` | dog_test.py:266 | the index `list.remove` looks at holds the value, and no earlier entry does |
| `Entities.SkippingPassSkipsNext` | dog_test.py:263-266 | as written, the loop leaves the obstacle after a removed one unmoved; the rebuilt pass moves it |
| `Shots.FirstHit` | dog_test.py:342-347 | the index of the first obstacle the bullet hits, with no hit before it; the list length when none |
| `Shots.RemoveAt` | dog_test.py:345 | removing the hit obstacle takes exactly that one entry out |
| `Shots.ResolveSpec` | dog_test.py:331-347 | after the bullet pass, every kept bullet is one original bullet flown one step and still above y = -10; no kept bullet overlaps a remaining obstacle; obstacles are only removed, and every removed obstacle is overlapped by some flown on-screen bullet; the kept bullets plus the destroyed obstacles are exactly the bullets still on the screen |
| `Shots.DestroyedWereHit` | dog_test.py:342-347 | an obstacle the pass removes is one some flown bullet still on the screen overlaps |
| `Shots.ResolveKeepsMisses` | dog_test.py:331-347 | a bullet that stays on the screen and overlaps none of the obstacles is kept, flown one step |
| `DayNight.SkyStep` | dog_test.py:189-202 | one tick keeps the phase in its band; the sky flips exactly when the phase reaches 0.5 while darkening or 0.6 while brightening; without a flip it rises by exactly the current half's speed and the speeds are unchanged; at dusk it lands on 0.5, at dawn it wraps to 0; at a flip the new half's speed is the drawn one and the other speed is kept |
| `DayNight.SkyOkRange` | dog_test.py:189-202 | the phase stays in [0, 0.6), and the sky darkens exactly while it is below 0.5 |
| `DayNight.DuskComes` | dog_test.py:189-196 | once the ticks at the current day speed cover the rest of the darkening half, the sky has turned, whatever is drawn |
| `DayNight.DuskWithin500` | dog_test.py:189-196 | night comes within 500 ticks of any darkening sky |
| `DayNight.DawnComes` | dog_test.py:196-202 | once the ticks at the current night speed cover the rest of the brightening half, the sky has wrapped to 0 and darkens again, whatever is drawn |
| `DayNight.DawnWithin100` | dog_test.py:196-202 | day comes back within 100 ticks of any brightening sky |
| `ClearSequence.ClearStep` | dog_test.py:130-184 | the door state stays or rises by one; the clear screen turns on only from state 5 with `clear_timer > 30`; the scene invariant is kept |
| `ClearSequence.ClosedOk` | dog_test.py:71-75 | the start scene satisfies the scene invariant |
| `ClearSequence.ClearStepProgress` | dog_test.py:130-184 | each tick before the clear screen moves on a state or brings the current state closer to its end |
| `ClearSequence.ClearSequenceEnds` | dog_test.py:130-184 | from any scene of the sequence, the clear screen is reached after finitely many ticks |
| `ClearSequence.NoStateSkipped` | dog_test.py:133-184 | every door state between the first and the n-th tick's is visited |
| `ClearSequence.VisitsEveryState` | dog_test.py:71-75 | from the closed door, the animation passes through every state from 0 to 5 |
| `Game.Restarted` | dog_test.py:786-821 | a reset keeps the drawn day and night speeds |
| `Game.RestartedOk` | dog_test.py:8-76 | the start state and every reset state satisfy the invariant, back on the title with an empty road |
| `Game.ClearedStepOk` | dog_test.py:123-186 | a clear-sequence frame keeps the invariant and empties the road |
| `Game.ShutOk` | dog_test.py:71-75 | before the goal, the shut door's scene is consistent for any dog between the walls on its row |
| `Game.TouchedOnScreen` | dog_test.py:265-279 | during play a touched entity is on the screen, so no entity is removed twice |
| `Game.Raised` | dog_test.py:204-212 | the poop multiplier grows by 0.005, the gauge by 0.1 times the new multiplier, the heal multiplier by 0.001; the speed grows by 0.005 only while below 4; the meters stay in range, the gauge strictly rises, score and progress are untouched |
| `Game.Rested` | dog_test.py:242-245 | sprinting with stamina left spends exactly 1; otherwise stamina rises by exactly 0.2 while below 100 and stays at or above 100 |
| `Game.KeyVelocity` | dog_test.py:246-252 | LEFT gives a negative velocity, RIGHT without LEFT a positive one, and with neither the old velocity stays |
| `Game.Walked` | dog_test.py:241-261 | the dog ends between the walls on its row; a move that stays inside the walls is taken whole with the key velocity kept; a move past the left wall stops at 20 and one past the right wall at 130, with the velocity negated (the bounce); with LEFT or RIGHT held the speed is the sprint speed exactly when SHIFT is held and stamina is left; stamina follows `Rested` |
| `Game.TimedGun` | dog_test.py:306-318 | an active power timer drops by one and the power lasts while it had more than one frame left; reload drops by one while positive; the timers stay in range; the bullets are untouched |
| `Game.TimedLight` | dog_test.py:311-314 | an active flashlight timer drops by one and the light stays on while it had more than one frame left; the timer stays in range |
| `Game.PowerRunsDown` | dog_test.py:306-309 | over n ticks an active power timer drops by n, and the power is on exactly while fewer ticks than the timer have passed |
| `Game.PowerLasts` | dog_test.py:52 | a picked-up power is on for exactly 180 timer ticks |
| `Game.LightRunsDown` | dog_test.py:311-314 | over n ticks an active flashlight timer drops by n, and the light is on exactly while fewer ticks than the timer have passed |
| `Game.FlashlightLasts` | dog_test.py:59 | a picked-up flashlight is on for exactly 250 timer ticks |
| `Game.Fired` | dog_test.py:320-329 | the timers stay in range and the power is untouched; one bullet is appended exactly when the power is on, SPACE is pressed and reload is 0, and then it is (x + 3, y, 0, -4) and reload becomes 10; otherwise the gun is unchanged |
| `Game.EntitiesMovedOk` | dog_test.py:263-301 | the entity passes keep gauges and timers in range, only lower the poop gauge, leave bullets and reload alone, and end the game exactly when an obstacle touches the dog or the gauge is full, the poop reason winning |
| `Game.ShotsAndProgressOk` | dog_test.py:303-354 | the rest of the frame keeps gauges and timers in range, adds `speed * 0.1` to the score and 0.5 to progress, and sets `is_cleared` exactly at the goal |
| `Game.WalkGame.constructor` | dog_test.py:8-76 | every attribute starts at its initial value, and the invariant holds |
| `Game.WalkGame.ResetGame` | dog_test.py:786-821 | every attribute returns to its start value except the two drawn speeds; the game is back on the title |
| `Game.WalkGame.RaiseGauges` | dog_test.py:204-212 | the meters become `Raised` of the old ones: the poop multiplier and heal multiplier grow, the gauge rises by 0.1 times the new multiplier, the speed rises by 0.005 only while below 4 |
| `Game.SpawnedSpec` | dog_test.py:214-239 | off a spawn frame, or with every lane blocked, the road is unchanged; otherwise exactly one list gains one entity at y = 0 in a lane whose top is clear of everything, at its centre for an obstacle or trash bag and 2 right of it for a power or flashlight item, and the other three lists are unchanged |
| `Game.WalkGame.Spawn` | dog_test.py:214-239 | the road becomes `Spawned` of the old one; it is unchanged off a spawn frame or with no clear lane; otherwise exactly one entity is added at the top of a lane that was clear, as `SpawnedSpec` states |
| `Game.WalkGame.MoveDog` | dog_test.py:241-261 | the dog becomes `Walked` of the old one: the stamina rule, a held key replacing the velocity with ± the current speed, the move clamped to the walls with the velocity flipped when clamped |
| `Game.WalkGame.MoveObstacles` | dog_test.py:263-269 | obstacles become their survivors; the game ends with "Look ahead!!" exactly when one touches the dog |
| `Game.WalkGame.MoveTrashBags` | dog_test.py:271-279 | bags become their survivors; the gauge drops by one heal amount per touched bag, floored at 0 |
| `Game.WalkGame.MovePowerItems` | dog_test.py:281-288 | items become their survivors; a touched item grants the power for 180 frames |
| `Game.WalkGame.MoveFlashlightItems` | dog_test.py:290-297 | items become their survivors; a touched item lights the flashlight for 250 frames |
| `Game.WalkGame.MoveEntities` | dog_test.py:263-301 | the whole state becomes `EntitiesMoved` of the old one: every list its survivors, the gauge healed once per touched bag, the power or flashlight granted when one is touched; gauges and timers stay in range; a full gauge ends the game with "Don't leave the poop behind!!", and any other game over is an obstacle hit |
| `Game.WalkGame.TickTimers` | dog_test.py:306-318 | the gun and light become `TimedGun` and `TimedLight` of the old ones: active timers count down by one, each effect ends when its timer reaches 0, reload counts down to 0 |
| `Game.WalkGame.Fire` | dog_test.py:320-329 | the gun becomes `Fired` of the old one: a bullet (x + 3, y, 0, -4) is added, and reload set to 10, exactly when the power is on, SPACE is pressed and reload is 0 |
| `Game.WalkGame.MoveBullets` | dog_test.py:331-347 | the bullets and obstacles become the result of the bullet pass |
| `Game.WalkGame.MoveWorld` | dog_test.py:188-261 | the whole state becomes `WorldMoved` of the old one: sky step, raised meters, the spawn at the new speed and the dog's move; the meters stay in range and the dog between the walls on its row |
| `Game.WalkGame.ShootAndAdvance` | dog_test.py:303-354 | the whole state becomes `ShotsAndProgress` of the old one: score, timers, firing, the bullet pass and progress; gauges and timers stay in range |
| `Game.WalkGame.Collide` | dog_test.py:263-354 | the whole state becomes the entity passes followed by `ShotsAndProgress`; gauges and timers stay in range; the score grows by `speed * 0.1`; progress advances by 0.5; `is_cleared` is set exactly at the goal |
| `Game.WalkGame.PlayTick` | dog_test.py:188-354 | the whole state becomes `PlayFrame` of the old one; a play frame keeps the invariant; progress grows by exactly 0.5; reaching 500 clears the game; a full gauge ends it |
| `Game.WalkGame.ClearTick` | dog_test.py:123-186 | a clear-sequence frame empties the four lists and advances the door by one `ClearStep` |
| `Game.WalkGame.Update` | dog_test.py:98-354 | the title only turns the dog and may start the game; game over changes nothing unless R resets; the clear screen only resets or adds a mark; after the goal, one door tick; otherwise one `PlayFrame` |

## Left out

- Drawing (`draw`), `pyxel.init`, `pyxel.run` and the module-level call that
  starts the game are left out. They render and run the loop and change no
  state.
- The keys, `frame_count` and the random draws are parameters of `Update`.
  `DrawsOk` states their ranges.
- Floats are modelled as `real`, so rounding is not modelled. `speed` stays
  below 4.005, not below 4, because it is compared with the cap before it is
  raised.
- Stamina is not bounded. The source does not clamp it: it drops by 1 from any
  positive value and rises by 0.2 from any value below 100. Only that rule is
  stated.
- `item_spawn_timer` is set by `reset_game` but read nowhere. `pet_width`,
  `pet_height`, `lane_width` and `warning_threshold` are set by the constructor
  and never read (dog_test.py:8, 9, 19, 46). None of them is modelled.
- `Game.WalkGame.MoveObstacles`, `Game.WalkGame.MoveTrashBags`,
  `Game.WalkGame.MovePowerItems` and `Game.WalkGame.MoveFlashlightItems` do not
  reproduce the source's skipping of the entry after a removed one. They model
  the rebuilt pass instead (see Findings).
- The source's double removal of a pickup (trash bag, power item or flashlight
  item) that is both off screen and touched is not modelled. It would raise
  `ValueError`, but it cannot happen, because the dog is on row 100 during play
  (`Game.TouchedOnScreen`).
- Entities are modelled as values. Python's entries are shared mutable lists,
  and `remove` finds the first equal entry. Entries never coincide, since
  spawns keep 40 apart and all move together, so the model removes by position
  in the list.

## Findings

| source | as written | input that shows it | evidently intended | confidence | as-written member | corrected member |
|---|---|---|---|---|---|---|
| dog_test.py:263-297 | `for e in l:` with `l.remove(e)` inside skips the entry after each removed one: that frame it neither moves down nor meets the collision check | obstacles `[(35, 120), (75, 50)]` at speed 1: the first leaves the screen and the second stays at y = 50 instead of 51 | every entity moves every frame, and those that leave or are collected are dropped | high (not executed) | `Entities.SkippingPassSkipsNext` | `Entities.SurvivorsSpec` |

=== FILE: clear_sequence.dfy ===
/** The door animation played once the goal is reached. Its state runs
    0 (door descends), 1 (door holds), 2 (door opens), 3 (dog walks in),
    4 (door closes), 5 (done, then the clear screen), strictly in order. */
module ClearSequence {
  import opened Entities

  /** `clear_door_y`, `door_state`, `door_open_width`, `clear_timer`, the
      dog's position and `show_clear_screen`. */
  datatype Scene = Scene(doorY: int, doorState: int, openWidth: real, timer: int,
                         petX: real, petY: real, show: bool)

  /** `pyxel.height // 2 - 30`: where the descending door stops. */
  const DoorStop: int := ScreenHeight / 2 - 30
  /** `pyxel.width // 2 - 6`: the x the dog walks to, under the door. */
  const DoorX: int := ScreenWidth / 2 - 6
  /** The dog walks up to 35 below the door's top. */
  const DoorDepth: int := 35
  /** The fully open width of the door. */
  const OpenWidth: real := 20.0
  /** Ticks the door holds closed, and the clear screen waits, for. */
  const HoldTicks: int := 30

  /** The scene at the start of a game, before the goal. */
  function Closed(petX: real, petY: real): Scene
  {
    Scene(-50, 0, 0.0, 0, petX, petY, false)
  }

  /** One tick of the clear sequence. */
  function ClearStep(s: Scene): (r: Scene)
    ensures r.doorState == s.doorState || r.doorState == s.doorState + 1
    ensures r.show != s.show ==> !s.show && s.doorState == 5 && r.timer > HoldTicks
    ensures SceneOk(s) ==> SceneOk(r)
  {
    var t := s.timer + 1;
    if s.doorState == 0 then
      var y := s.doorY + 1;
      if y >= DoorStop then s.(doorY := y, doorState := 1, timer := 0)
      else s.(doorY := y, timer := t)
    else if s.doorState == 1 && t > HoldTicks then
      s.(doorState := 2, timer := t)
    else if s.doorState == 2 then
      var w := Min(OpenWidth, s.openWidth + 1.0);
      if w >= OpenWidth then s.(openWidth := w, doorState := 3, timer := 0)
      else s.(openWidth := w, timer := t)
    else if s.doorState == 3 then
      var tx := DoorX as real;
      var ty := (s.doorY + DoorDepth) as real;
      var x :=
        if Abs(s.petX - tx) > 1.0 then
          (if s.petX < tx then s.petX + 1.0 else if s.petX > tx then s.petX - 1.0 else s.petX)
        else tx;
      if Abs(x - tx) <= 1.0 then
        var y := if s.petY > ty then s.petY - 1.0 else s.petY;
        if y <= ty then s.(petX := x, petY := y, doorState := 4, timer := 0)
        else s.(petX := x, petY := y, timer := t)
      else s.(petX := x, timer := t)
    else if s.doorState == 4 then
      var w := if s.openWidth > 0.0 then Max(0.0, s.openWidth - 0.5) else s.openWidth;
      if w <= 0.0 then s.(openWidth := w, doorState := 5, timer := 0)
      else s.(openWidth := w, timer := t)
    else if s.doorState == 5 && t > HoldTicks then
      s.(show := true, timer := t)
    else
      s.(timer := t)
  }

  /** What holds of the scene in every state of the sequence: the state
      is 0..5, the door width is in [0, 20], the dog stays between the walls,
      and each state's own quantities are where that state left them. */
  predicate SceneOk(s: Scene)
  {
    && 0 <= s.doorState <= 5
    && 0.0 <= s.openWidth <= OpenWidth
    && LeftWall <= s.petX <= RightWall
    && s.timer >= 0
    && (if s.doorState == 0 then s.doorY < DoorStop else s.doorY == DoorStop)
    && (s.doorState == 1 ==> s.timer <= HoldTicks)
    && (s.doorState <= 1 ==> s.openWidth == 0.0)
    && (s.doorState == 2 ==> s.openWidth < OpenWidth)
    && (s.doorState == 3 ==> s.openWidth == OpenWidth)
    && (s.doorState == 4 ==> s.openWidth > 0.0)
    && (s.doorState == 5 ==> s.openWidth == 0.0)
    && (s.doorState <= 3 ==> s.petY > (DoorStop + DoorDepth) as real)
    && (s.show ==> s.doorState == 5)
    && (s.doorState == 5 && !s.show ==> s.timer <= HoldTicks)
  }

  /** The scene the sequence starts from: nothing has moved yet and the dog
      is where play left it, below the door's target. */
  lemma ClosedOk(petX: real, petY: real)
    requires LeftWall <= petX <= RightWall && petY > (DoorStop + DoorDepth) as real
    ensures SceneOk(Closed(petX, petY))
  {
  }

  /** How far the current state still has to go. */
  function Remaining(s: Scene): nat
    requires SceneOk(s)
  {
    match s.doorState
    case 0 => DoorStop - s.doorY
    case 1 => HoldTicks - s.timer
    case 2 => 20 - s.openWidth.Floor
    case 3 => Abs(s.petX - DoorX as real).Floor + (s.petY - (DoorStop + DoorDepth) as real).Floor
    case 4 => (2.0 * s.openWidth).Floor
    case _ => if s.show then 0 else HoldTicks - s.timer
  }

  lemma FloorLessOne(a: real)
    ensures (a - 1.0).Floor == a.Floor - 1
  {
  }

  /** Each tick before the clear screen either moves on to the next state
      or brings the current one closer to its end. */
  lemma ClearStepProgress(s: Scene)
    requires SceneOk(s) && !s.show
    ensures var r := ClearStep(s);
      || r.doorState == s.doorState + 1
      || (r.doorState == s.doorState && (r.show || Remaining(r) < Remaining(s)))
  {
    var r := ClearStep(s);
    if s.doorState == 2 && r.doorState == 2 {
      assert r.openWidth == s.openWidth + 1.0;
      FloorLessOne(r.openWidth);
    } else if s.doorState == 3 && r.doorState == 3 {
      var tx := DoorX as real;
      if Abs(s.petX - tx) > 1.0 {
        FloorLessOne(Abs(s.petX - tx));
        if Abs(r.petX - tx) <= 1.0 {
          FloorLessOne(s.petY - 65.0);
        }
      } else {
        FloorLessOne(s.petY - 65.0);
      }
    } else if s.doorState == 4 && r.doorState == 4 {
      FloorLessOne(2.0 * s.openWidth);
    }
  }

  /** The scene after n ticks. */
  function Run(s: Scene, n: nat): Scene
    decreases n
  {
    if n == 0 then s else Run(ClearStep(s), n - 1)
  }

  /** The sequence always ends: from any scene of the sequence, some number
      of ticks later the door is in state 5 and the clear screen is shown. */
  lemma {:induction false} ClearSequenceEnds(s: Scene)
    requires SceneOk(s)
    ensures exists n: nat :: Run(s, n).show && Run(s, n).doorState == 5
    decreases 5 - s.doorState, Remaining(s)
  {
    if s.show {
      assert Run(s, 0) == s;
    } else {
      var r := ClearStep(s);
      ClearStepProgress(s);
      if r.show {
        assert Run(s, 1) == r;
      } else {
        ClearSequenceEnds(r);
        var n: nat :| Run(r, n).show && Run(r, n).doorState == 5;
        assert Run(s, n + 1) == Run(r, n);
      }
    }
  }

  /** The tick after n ticks is the (n + 1)-th. */
  lemma {:induction false} RunLast(s: Scene, n: nat)
    ensures Run(s, n + 1) == ClearStep(Run(s, n))
    decreases n
  {
    if n > 0 {
      RunLast(ClearStep(s), n - 1);
    }
  }

  /** No state is skipped: every state between the first and the n-th tick's
      is the state of some tick in between. */
  lemma {:induction false} NoStateSkipped(s: Scene, n: nat, k: int)
    requires s.doorState <= k <= Run(s, n).doorState
    ensures exists m :: 0 <= m <= n && Run(s, m).doorState == k
    decreases n
  {
    if n == 0 || Run(s, n).doorState == k {
      assert Run(s, n).doorState == k;
    } else {
      RunLast(s, n - 1);
      NoStateSkipped(s, n - 1, k);
    }
  }

  /** From the closed door, the sequence passes through every state 0 to 5. */
  lemma VisitsEveryState(petX: real, petY: real, k: int)
    requires LeftWall <= petX <= RightWall && petY > (DoorStop + DoorDepth) as real
    requires 0 <= k <= 5
    ensures exists m: nat :: Run(Closed(petX, petY), m).doorState == k
  {
    ClosedOk(petX, petY);
    ClearSequenceEnds(Closed(petX, petY));
    var n: nat :| Run(Closed(petX, petY), n).show && Run(Closed(petX, petY), n).doorState == 5;
    NoStateSkipped(Closed(petX, petY), n, k);
  }
}

=== FILE: day_night.dfy ===
/** The day/night cycle: a phase value that rises while the sky darkens,
    stops at dusk (0.5) and then rises again, at a fresh speed, until dawn
    (0.6) sends it back to 0. */
module DayNight {

  /** `day_cycle`, `is_darkening`, `day_speed`, `night_speed`. */
  datatype Sky = Sky(cycle: real, darkening: bool, daySpeed: real, nightSpeed: real)

  /** The darkening half ends here and the phase is pinned to it. */
  const Dusk: real := 0.5
  /** The brightening half ends here and the phase returns to 0. */
  const Dawn: real := 0.6

  /** A speed drawn with `rndf(0.001, 0.005)`. */
  predicate SpeedDrawn(v: real)
  {
    0.001 <= v <= 0.005
  }

  /** Both speeds are drawn values; darkening keeps the phase in [0, 0.5),
      brightening keeps it in [0.5, 0.6). */
  predicate SkyOk(s: Sky)
  {
    && SpeedDrawn(s.daySpeed) && SpeedDrawn(s.nightSpeed)
    && (if s.darkening then 0.0 <= s.cycle < Dusk else Dusk <= s.cycle < Dawn)
  }

  /** The sky at the start of a game. */
  const Morning: Sky := Sky(0.0, true, 0.002, 0.002)

  /** One tick of the cycle; `draw` is the value `rndf` returns when a half
      ends (dusk draws the next night speed, dawn the next day speed). */
  function SkyStep(s: Sky, draw: real): (r: Sky)
    requires SkyOk(s) && SpeedDrawn(draw)
    ensures SkyOk(r)
    ensures r.cycle > s.cycle || (!s.darkening && r.darkening && r.cycle == 0.0)
    ensures r.darkening != s.darkening ==> r.cycle == if r.darkening then 0.0 else Dusk
    ensures r.darkening != s.darkening ==> (if r.darkening then r.daySpeed else r.nightSpeed) == draw
    ensures r.darkening == s.darkening ==> r.daySpeed == s.daySpeed && r.nightSpeed == s.nightSpeed
    ensures s.darkening && s.cycle + s.daySpeed >= Dusk ==> !r.darkening && r.cycle == Dusk
    ensures !s.darkening && s.cycle + s.nightSpeed >= Dawn ==> r.darkening && r.cycle == 0.0
    ensures r.darkening == s.darkening ==> r.cycle == s.cycle + (if s.darkening then s.daySpeed else s.nightSpeed)
    ensures r.darkening != s.darkening <==>
      (if s.darkening then s.cycle + s.daySpeed >= Dusk else s.cycle + s.nightSpeed >= Dawn)
    ensures r.darkening != s.darkening ==> if r.darkening then r.nightSpeed == s.nightSpeed else r.daySpeed == s.daySpeed
  {
    if s.darkening then
      var c := s.cycle + s.daySpeed;
      if c >= Dusk then Sky(Dusk, false, s.daySpeed, draw) else s.(cycle := c)
    else
      var c := s.cycle + s.nightSpeed;
      if c >= Dawn then Sky(0.0, true, draw, s.nightSpeed) else s.(cycle := c)
  }

  /** The whole phase stays in [0, 0.6), and night (phase at least 0.5) is
      exactly the brightening half. */
  lemma SkyOkRange(s: Sky)
    requires SkyOk(s)
    ensures 0.0 <= s.cycle < Dawn
    ensures s.darkening <==> s.cycle < Dusk
  {
  }

  /** The n-th sky from s, with draws[k] the value drawn at tick k. */
  function SkyRun(s: Sky, draws: seq<real>): Sky
    requires SkyOk(s)
    requires forall k :: 0 <= k < |draws| ==> SpeedDrawn(draws[k])
    decreases |draws|
  {
    if draws == [] then s else SkyRun(SkyStep(s, draws[0]), draws[1..])
  }

  /** Night always comes: once enough ticks have passed for the current day
      speed to cover the rest of the darkening half, the sky has turned to
      brightening, whatever speeds are drawn. */
  lemma {:induction false} DuskComes(s: Sky, draws: seq<real>)
    requires SkyOk(s) && s.darkening
    requires forall k :: 0 <= k < |draws| ==> SpeedDrawn(draws[k])
    requires (|draws| as real) * s.daySpeed >= Dusk - s.cycle
    ensures exists k :: 0 < k <= |draws| && !SkyRun(s, draws[..k]).darkening
    decreases |draws|
  {
    var t := SkyStep(s, draws[0]);
    assert SkyRun(s, draws[..1]) == t by {
      assert draws[..1][1..] == [];
    }
    if !t.darkening {
    } else {
      assert t.cycle == s.cycle + s.daySpeed && t.daySpeed == s.daySpeed;
      var rest := draws[1..];
      assert (|draws| as real) * s.daySpeed == (|rest| as real) * s.daySpeed + s.daySpeed;
      DuskComes(t, rest);
      var k :| 0 < k <= |rest| && !SkyRun(t, rest[..k]).darkening;
      assert draws[..k + 1][1..] == rest[..k];
      assert !SkyRun(s, draws[..k + 1]).darkening;
    }
  }

  /** Since the slowest drawn speed is 0.001, dusk comes within 500 ticks. */
  lemma DuskWithin500(s: Sky, draws: seq<real>)
    requires SkyOk(s) && s.darkening
    requires forall k :: 0 <= k < |draws| ==> SpeedDrawn(draws[k])
    requires |draws| >= 500
    ensures exists k :: 0 < k <= 500 && !SkyRun(s, draws[..k]).darkening
  {
    var first := draws[..500];
    assert forall k :: 0 < k <= 500 ==> first[..k] == draws[..k];
    DuskComes(s, first);
  }

  /** Day always comes back: once enough ticks have passed for the current
      night speed to cover the rest of the brightening half, the sky has
      wrapped to 0 and darkens again, whatever speeds are drawn. */
  lemma {:induction false} DawnComes(s: Sky, draws: seq<real>)
    requires SkyOk(s) && !s.darkening
    requires forall k :: 0 <= k < |draws| ==> SpeedDrawn(draws[k])
    requires (|draws| as real) * s.nightSpeed >= Dawn - s.cycle
    ensures exists k :: 0 < k <= |draws| && SkyRun(s, draws[..k]).darkening
    decreases |draws|
  {
    var t := SkyStep(s, draws[0]);
    assert SkyRun(s, draws[..1]) == t by {
      assert draws[..1][1..] == [];
    }
    if !t.darkening {
      assert t.cycle == s.cycle + s.nightSpeed && t.nightSpeed == s.nightSpeed;
      var rest := draws[1..];
      assert (|draws| as real) * s.nightSpeed == (|rest| as real) * s.nightSpeed + s.nightSpeed;
      DawnComes(t, rest);
      var k :| 0 < k <= |rest| && SkyRun(t, rest[..k]).darkening;
      assert draws[..k + 1][1..] == rest[..k];
    }
  }

  /** Since the slowest drawn speed is 0.001 and the brightening half is 0.1
      wide, day comes back within 100 ticks. */
  lemma DawnWithin100(s: Sky, draws: seq<real>)
    requires SkyOk(s) && !s.darkening
    requires forall k :: 0 <= k < |draws| ==> SpeedDrawn(draws[k])
    requires |draws| >= 100
    ensures exists k :: 0 < k <= 100 && SkyRun(s, draws[..k]).darkening
  {
    var first := draws[..100];
    assert forall k :: 0 < k <= 100 ==> first[..k] == draws[..k];
    DawnComes(s, first);
  }
}

=== FILE: entities.dfy ===
/** Things that scroll down the lanes: obstacles, trash bags, power items and
    flashlight items. Each is a bare position; one tick moves every one of them
    down by the global speed, drops those that left the screen and, for the
    pickups, those the dog touched. */
module Entities {

  /** Size of the game window. */
  const ScreenWidth: int := 160
  const ScreenHeight: int := 120

  /** The dog walks between these two walls. */
  const LeftWall: real := 20.0
  const RightWall: real := 130.0

  /** Two things touch when both axis distances are below this. */
  const TouchRadius: real := 12.0

  function Abs(r: real): real { if r < 0.0 then -r else r }

  function Max(a: real, b: real): real { if a < b then b else a }

  function Min(a: real, b: real): real { if a < b then a else b }

  /** An entity on the road, `[x, y]` in the game. */
  datatype Pos = Pos(x: real, y: real)

  /** The entity one tick later: moved down by the global speed. */
  function Advance(e: Pos, speed: real): Pos
  {
    Pos(e.x, e.y + speed)
  }

  predicate OffScreen(e: Pos)
  {
    e.y > ScreenHeight as real
  }

  /** The box test against the dog at (px, py), both axes independently. */
  predicate Touches(e: Pos, px: real, py: real)
  {
    Abs(e.x - px) < TouchRadius && Abs(e.y - py) < TouchRadius
  }

  /** Whether an advanced entity stays in its list: it is still on the screen
      and, when it is a pickup, the dog did not collect it. */
  predicate Stays(e: Pos, pickup: bool, px: real, py: real)
  {
    !OffScreen(e) && !(pickup && Touches(e, px, py))
  }

  /** A list after one tick, rebuilt in order from the entities that stay. */
  function Survivors(l: seq<Pos>, speed: real, pickup: bool, px: real, py: real): seq<Pos>
  {
    if l == [] then []
    else
      var e := Advance(l[|l| - 1], speed);
      Survivors(l[..|l| - 1], speed, pickup, px, py) + (if Stays(e, pickup, px, py) then [e] else [])
  }

  /** How many entities of the list touch the dog once advanced. */
  function Touched(l: seq<Pos>, speed: real, px: real, py: real): nat
  {
    if l == [] then 0
    else
      Touched(l[..|l| - 1], speed, px, py) + (if Touches(Advance(l[|l| - 1], speed), px, py) then 1 else 0)
  }

  /** Every entity of the list advanced, in order. */
  function Moved(l: seq<Pos>, speed: real): (r: seq<Pos>)
    ensures |r| == |l|
    ensures forall i :: 0 <= i < |l| ==> r[i] == Advance(l[i], speed)
  {
    if l == [] then [] else Moved(l[..|l| - 1], speed) + [Advance(l[|l| - 1], speed)]
  }

  /** The survivors are exactly the advanced entities that stay, each no more
      often than it occurs among the advanced entities, and never more than
      there were. */
  lemma {:induction false} SurvivorsSpec(l: seq<Pos>, speed: real, pickup: bool, px: real, py: real)
    ensures |Survivors(l, speed, pickup, px, py)| <= |l|
    ensures multiset(Survivors(l, speed, pickup, px, py)) <= multiset(Moved(l, speed))
    ensures forall e :: e in Survivors(l, speed, pickup, px, py) ==>
              Stays(e, pickup, px, py) && exists i :: 0 <= i < |l| && e == Advance(l[i], speed)
    ensures forall i :: 0 <= i < |l| && Stays(Advance(l[i], speed), pickup, px, py) ==>
              Advance(l[i], speed) in Survivors(l, speed, pickup, px, py)
  {
    if l != [] {
      var init := l[..|l| - 1];
      SurvivorsSpec(init, speed, pickup, px, py);
      var e := Advance(l[|l| - 1], speed);
      assert Moved(l, speed) == Moved(init, speed) + [e];
      assert multiset(Moved(l, speed)) == multiset(Moved(init, speed)) + multiset{e};
      forall e | e in Survivors(l, speed, pickup, px, py)
        ensures Stays(e, pickup, px, py) && exists i :: 0 <= i < |l| && e == Advance(l[i], speed)
      {
        if e in Survivors(init, speed, pickup, px, py) {
          var i :| 0 <= i < |init| && e == Advance(init[i], speed);
          assert l[i] == init[i];
        } else {
          assert e == Advance(l[|l| - 1], speed);
        }
      }
      forall i | 0 <= i < |l| && Stays(Advance(l[i], speed), pickup, px, py)
        ensures Advance(l[i], speed) in Survivors(l, speed, pickup, px, py)
      {
        if i < |l| - 1 {
          assert l[i] == init[i];
        }
      }
    }
  }

  /** Some entity of the list touches the dog exactly when the count is positive. */
  lemma {:induction false} TouchedSpec(l: seq<Pos>, speed: real, px: real, py: real)
    ensures Touched(l, speed, px, py) <= |l|
    ensures Touched(l, speed, px, py) > 0 <==>
              exists i :: 0 <= i < |l| && Touches(Advance(l[i], speed), px, py)
  {
    if l != [] {
      var init := l[..|l| - 1];
      TouchedSpec(init, speed, px, py);
      if Touched(init, speed, px, py) > 0 {
        var i :| 0 <= i < |init| && Touches(Advance(init[i], speed), px, py);
        assert l[i] == init[i];
      }
      if exists i :: 0 <= i < |l| && Touches(Advance(l[i], speed), px, py) {
        var i :| 0 <= i < |l| && Touches(Advance(l[i], speed), px, py);
        if i < |l| - 1 {
          assert l[i] == init[i];
        }
      }
    }
  }

  /** The poop gauge after k trash bags, each healing `amount` and flooring
      the gauge at 0. */
  function Healed(gauge: real, amount: real, k: nat): real
  {
    Max(gauge - k as real * amount, 0.0)
  }

  /** One more heal on top of k heals is k + 1 heals: the floor at 0 never
      lets a later heal undo an earlier clamp. */
  lemma HealAgain(gauge: real, amount: real, k: nat)
    requires amount >= 0.0
    ensures Max(Healed(gauge, amount, k) - amount, 0.0) == Healed(gauge, amount, k + 1)
    ensures Healed(gauge, amount, k + 1) >= 0.0
  {
  }

  // ---------------------------------------------------------------------
  // The loop as the game writes it: `for e in l: ...; l.remove(e)`.
  // Python's list iterator walks an index; removing the current entry shifts
  // the next one into the current slot, which the iterator then steps over.

  /** The list with the first entry equal to e taken out (`list.remove`,
      which raises `ValueError` when there is none). */
  function RemoveFirst(l: seq<Pos>, e: Pos): (r: seq<Pos>)
    requires e in l
    ensures |r| == |l| - 1
    ensures exists k :: 0 <= k < |l| && l[k] == e && e !in l[..k] && r == l[..k] + l[k + 1..]
  {
    var k := FirstIndex(l, e);
    l[..k] + l[k + 1..]
  }

  /** Where `list.remove` looks: the index of the first entry equal to e. */
  function FirstIndex(l: seq<Pos>, e: Pos): (k: nat)
    requires e in l
    ensures k < |l| && l[k] == e && e !in l[..k]
  {
    if l[0] == e then 0
    else
      var k := FirstIndex(l[1..], e);
      assert l[..k + 1] == [l[0]] + l[1..][..k];
      k + 1
  }

  /** The obstacle culling loop as written, from iterator index i on. */
  function SkippingPass(l: seq<Pos>, i: nat, speed: real): seq<Pos>
    decreases |l| - i
  {
    if i >= |l| then l
    else
      var e := Advance(l[i], speed);
      var moved := l[i := e];
      if OffScreen(e) then
        assert moved[i] == e;
        SkippingPass(RemoveFirst(moved, e), i + 1, speed)
      else SkippingPass(moved, i + 1, speed)
  }

  /** Two obstacles, the first about to leave the screen: the loop as written
      leaves the second one where it was, while the rebuilt list moves it. */
  lemma SkippingPassSkipsNext()
    ensures SkippingPass([Pos(35.0, 120.0), Pos(75.0, 50.0)], 0, 1.0) == [Pos(75.0, 50.0)]
    ensures Survivors([Pos(35.0, 120.0), Pos(75.0, 50.0)], 1.0, false, 80.0, 100.0) == [Pos(75.0, 51.0)]
  {
    var l := [Pos(35.0, 120.0), Pos(75.0, 50.0)];
    assert l[0 := Pos(35.0, 121.0)] == [Pos(35.0, 121.0), Pos(75.0, 50.0)];
    assert RemoveFirst([Pos(35.0, 121.0), Pos(75.0, 50.0)], Pos(35.0, 121.0)) == [Pos(75.0, 50.0)];
    assert l[..1] == [Pos(35.0, 120.0)];
    assert l[..1][..0] == [];
  }
}

=== FILE: shots.dfy ===
/** Bullets fired with the power-up, and what they do to obstacles: each
    bullet flies up, leaves the list above the screen, or destroys the first
    obstacle it reaches and disappears with it. */
module Shots {
  import opened Entities

  /** `[x, y, vx, vy]` in the game. */
  datatype Bullet = Bullet(x: real, y: real, vx: real, vy: real)

  /** A bullet whose y falls below this has left the screen. */
  const BulletTop: real := -10.0

  /** The bullet one tick later: only its y moves, by its vertical speed. */
  function Fly(b: Bullet): Bullet
  {
    b.(y := b.y + b.vy)
  }

  /** The same box test as the dog's, radius 12. */
  predicate Hits(b: Bullet, o: Pos)
  {
    Abs(b.x - o.x) < TouchRadius && Abs(b.y - o.y) < TouchRadius
  }

  /** Index of the first obstacle the bullet hits, |obstacles| when none. */
  function FirstHit(b: Bullet, obstacles: seq<Pos>): (j: nat)
    ensures j <= |obstacles|
    ensures j < |obstacles| ==> Hits(b, obstacles[j])
    ensures forall k :: 0 <= k < j ==> !Hits(b, obstacles[k])
  {
    if obstacles == [] then 0
    else if Hits(b, obstacles[0]) then 0
    else 1 + FirstHit(b, obstacles[1..])
  }

  function RemoveAt(s: seq<Pos>, j: nat): (r: seq<Pos>)
    requires j < |s|
    ensures |r| == |s| - 1
    ensures multiset(r) + multiset{s[j]} == multiset(s)
  {
    assert s == s[..j] + [s[j]] + s[j + 1..];
    s[..j] + s[j + 1..]
  }

  /** Bullets kept so far and obstacles left so far. */
  datatype Volley = Volley(bullets: seq<Bullet>, obstacles: seq<Pos>)

  /** One bullet of the pass: it flies; above the screen it is dropped;
      otherwise it takes the first obstacle it hits with it, or is kept. */
  function ShotStep(v: Volley, b: Bullet): Volley
  {
    var f := Fly(b);
    if f.y < BulletTop then v
    else
      var j := FirstHit(f, v.obstacles);
      if j < |v.obstacles| then Volley(v.bullets, RemoveAt(v.obstacles, j))
      else Volley(v.bullets + [f], v.obstacles)
  }

  /** The bullet pass over the bullets in order, against the obstacle list as
      the earlier bullets left it. */
  function Resolve(bullets: seq<Bullet>, obstacles: seq<Pos>): Volley
  {
    if bullets == [] then Volley([], obstacles)
    else ShotStep(Resolve(bullets[..|bullets| - 1], obstacles), bullets[|bullets| - 1])
  }

  /** How many of the bullets are still on the screen once flown. */
  function OnScreen(bullets: seq<Bullet>): (n: nat)
    ensures n <= |bullets|
  {
    if bullets == [] then 0
    else OnScreen(bullets[..|bullets| - 1]) + (if Fly(bullets[|bullets| - 1]).y >= BulletTop then 1 else 0)
  }

  /** After the pass: every kept bullet is on the screen and has flown one
      step, no kept bullet overlaps a remaining obstacle, obstacles are only
      ever removed, and every bullet still on the screen is either kept or
      took exactly one obstacle with it. */
  lemma {:induction false} ResolveSpec(bullets: seq<Bullet>, obstacles: seq<Pos>)
    ensures var r := Resolve(bullets, obstacles);
      && (forall b :: b in r.bullets ==> b.y >= BulletTop && exists i :: 0 <= i < |bullets| && b == Fly(bullets[i]))
      && (forall b, o :: b in r.bullets && o in r.obstacles ==> !Hits(b, o))
      && multiset(r.obstacles) <= multiset(obstacles)
      && |r.bullets| + (|obstacles| - |r.obstacles|) == OnScreen(bullets)
      && |r.bullets| + (|obstacles| - |r.obstacles|) <= |bullets|
      && (forall o :: o in obstacles && o !in r.obstacles ==>
            exists i :: 0 <= i < |bullets| && Fly(bullets[i]).y >= BulletTop && Hits(Fly(bullets[i]), o))
  {
    DestroyedWereHit(bullets, obstacles);
    if bullets != [] {
      var init := bullets[..|bullets| - 1];
      var last := bullets[|bullets| - 1];
      var v := Resolve(init, obstacles);
      ResolveSpec(init, obstacles);
      var r := ShotStep(v, last);
      assert r == Resolve(bullets, obstacles);
      forall b | b in r.bullets
        ensures exists i :: 0 <= i < |bullets| && b == Fly(bullets[i])
      {
        if b in v.bullets {
          var i :| 0 <= i < |init| && b == Fly(init[i]);
          assert bullets[i] == init[i];
        } else {
          assert b == Fly(bullets[|bullets| - 1]);
        }
      }
      var f := Fly(last);
      if f.y >= BulletTop {
        var j := FirstHit(f, v.obstacles);
        if j < |v.obstacles| {
          var rest := RemoveAt(v.obstacles, j);
          assert multiset(rest) <= multiset(v.obstacles);
          forall o | o in rest ensures o in v.obstacles {
            assert o in multiset(rest);
          }
        }
      }
    }
  }

  /** An obstacle the pass removes is one that some bullet, flown and still on
      the screen, overlaps. */
  lemma {:induction false} DestroyedWereHit(bullets: seq<Bullet>, obstacles: seq<Pos>)
    ensures forall o :: o in obstacles && o !in Resolve(bullets, obstacles).obstacles ==>
      exists i :: 0 <= i < |bullets| && Fly(bullets[i]).y >= BulletTop && Hits(Fly(bullets[i]), o)
  {
    if bullets != [] {
      var init := bullets[..|bullets| - 1];
      var last := bullets[|bullets| - 1];
      var v := Resolve(init, obstacles);
      DestroyedWereHit(init, obstacles);
      var r := Resolve(bullets, obstacles);
      forall o | o in obstacles && o !in r.obstacles
        ensures exists i :: 0 <= i < |bullets| && Fly(bullets[i]).y >= BulletTop && Hits(Fly(bullets[i]), o)
      {
        if o !in v.obstacles {
          var i :| 0 <= i < |init| && Fly(init[i]).y >= BulletTop && Hits(Fly(init[i]), o);
          assert bullets[i] == init[i];
        } else {
          var f := Fly(last);
          var j := FirstHit(f, v.obstacles);
          if f.y >= BulletTop && j < |v.obstacles| {
            var rest := RemoveAt(v.obstacles, j);
            assert r.obstacles == rest;
            forall x | x in v.obstacles && x != v.obstacles[j] ensures x in rest {
              assert x in multiset(v.obstacles);
            }
            assert Hits(Fly(bullets[|bullets| - 1]), o);
          }
        }
      }
    }
  }

  /** A bullet that stays on the screen and hits no obstacle at all is kept,
      one step further up. */
  lemma {:induction false} ResolveKeepsMisses(bullets: seq<Bullet>, obstacles: seq<Pos>, i: nat)
    requires i < |bullets| && Fly(bullets[i]).y >= BulletTop
    requires forall o :: o in obstacles ==> !Hits(Fly(bullets[i]), o)
    ensures Fly(bullets[i]) in Resolve(bullets, obstacles).bullets
  {
    var init := bullets[..|bullets| - 1];
    var v := Resolve(init, obstacles);
    if i == |bullets| - 1 {
      ResolveSpec(init, obstacles);
      forall o | o in v.obstacles ensures o in obstacles {
        assert o in multiset(v.obstacles);
      }
      var j := FirstHit(Fly(bullets[i]), v.obstacles);
      if j < |v.obstacles| {
        // the obstacle it would hit is one of the original ones
        assert false;
      }
    } else {
      assert init[i] == bullets[i];
      ResolveKeepsMisses(init, obstacles, i);
    }
  }
}

=== FILE: spawning.dfy ===
/** Where and when a new entity may appear: the spawn-gap test of a lane
    centre against everything already on the road, the list of clear lanes,
    and the spawn interval that shrinks as the game speeds up. */
module Spawning {
  import opened Entities

  /** The three lanes, by index 0, 1, 2. */
  const LaneCount: nat := 3

  /** `lane_centers = [35, 75, 115]`. */
  function LaneCenter(lane: nat): real
    requires lane < LaneCount
  {
    [35.0, 75.0, 115.0][lane]
  }

  /** An entity blocks a spot when it is at most this far sideways ... */
  const SpawnReach: real := 40.0
  /** ... and strictly closer than this vertically. */
  const MinSpawnDistance: real := 40.0

  /** Spawning never happens more often than every this many frames. */
  const MinSpawnInterval: int := 10

  predicate Blocks(e: Pos, x: real, y: real)
  {
    Abs(e.x - x) <= SpawnReach && Abs(e.y - y) < MinSpawnDistance
  }

  ghost predicate Blocked(l: seq<Pos>, x: real, y: real)
  {
    exists i :: 0 <= i < |l| && Blocks(l[i], x, y)
  }

  /** No obstacle, trash bag, power item or flashlight item blocks (x, y). */
  ghost predicate SpaceClear(obstacles: seq<Pos>, trashBags: seq<Pos>, powerItems: seq<Pos>,
                             flashlightItems: seq<Pos>, x: real, y: real)
  {
    !Blocked(obstacles, x, y) && !Blocked(trashBags, x, y) &&
    !Blocked(powerItems, x, y) && !Blocked(flashlightItems, x, y)
  }

  /** One of the four scans of `is_space_clear`: stops at the first entity
      that blocks the spot. */
  method FindBlocker(l: seq<Pos>, x: real, y: real) returns (found: bool)
    ensures found <==> Blocked(l, x, y)
  {
    var i := 0;
    while i < |l|
      invariant 0 <= i <= |l|
      invariant forall k :: 0 <= k < i ==> !Blocks(l[k], x, y)
    {
      if Blocks(l[i], x, y) {
        return true;
      }
      i := i + 1;
    }
    return false;
  }

  /** `is_space_clear`: false as soon as one list holds an entity that blocks
      (x, y), true when none does. */
  method IsSpaceClear(obstacles: seq<Pos>, trashBags: seq<Pos>, powerItems: seq<Pos>,
                      flashlightItems: seq<Pos>, x: real, y: real) returns (clear: bool)
    ensures clear <==> SpaceClear(obstacles, trashBags, powerItems, flashlightItems, x, y)
    ensures !clear <==> exists e :: (e in obstacles || e in trashBags || e in powerItems || e in flashlightItems) && Blocks(e, x, y)
  {
    var found := FindBlocker(obstacles, x, y);
    if found { return false; }
    found := FindBlocker(trashBags, x, y);
    if found { return false; }
    found := FindBlocker(powerItems, x, y);
    if found { return false; }
    found := FindBlocker(flashlightItems, x, y);
    if found { return false; }
    return true;
  }

  /** The lanes below n whose centre at the top of the screen is clear, in
      increasing order. */
  ghost function ClearLanesBelow(obstacles: seq<Pos>, trashBags: seq<Pos>, powerItems: seq<Pos>,
                                 flashlightItems: seq<Pos>, n: nat): (lanes: seq<nat>)
    requires n <= LaneCount
    ensures forall i :: 0 <= i < |lanes| ==> lanes[i] < n
  {
    if n == 0 then []
    else
      ClearLanesBelow(obstacles, trashBags, powerItems, flashlightItems, n - 1) +
      (if SpaceClear(obstacles, trashBags, powerItems, flashlightItems, LaneCenter(n - 1), 0.0)
       then [n - 1] else [])
  }

  /** `available_lanes` of the spawn step. */
  ghost function ClearLanes(obstacles: seq<Pos>, trashBags: seq<Pos>, powerItems: seq<Pos>,
                            flashlightItems: seq<Pos>): (lanes: seq<nat>)
    ensures forall i :: 0 <= i < |lanes| ==> lanes[i] < LaneCount
  {
    ClearLanesBelow(obstacles, trashBags, powerItems, flashlightItems, LaneCount)
  }

  /** A lane is listed exactly when it is below n and its centre is clear,
      each at most once and in increasing order. */
  lemma {:induction false} ClearLanesBelowSpec(obstacles: seq<Pos>, trashBags: seq<Pos>, powerItems: seq<Pos>,
                                               flashlightItems: seq<Pos>, n: nat)
    requires n <= LaneCount
    ensures var lanes := ClearLanesBelow(obstacles, trashBags, powerItems, flashlightItems, n);
      && |lanes| <= n
      && (forall i, j :: 0 <= i < j < |lanes| ==> lanes[i] < lanes[j])
      && (forall lane: nat :: lane in lanes <==>
            lane < n && SpaceClear(obstacles, trashBags, powerItems, flashlightItems, LaneCenter(lane), 0.0))
  {
    if n > 0 {
      var prefix := ClearLanesBelow(obstacles, trashBags, powerItems, flashlightItems, n - 1);
      ClearLanesBelowSpec(obstacles, trashBags, powerItems, flashlightItems, n - 1);
      var last: seq<nat> :=
        if SpaceClear(obstacles, trashBags, powerItems, flashlightItems, LaneCenter(n - 1), 0.0) then [n - 1] else [];
      var lanes := prefix + last;
      assert lanes == ClearLanesBelow(obstacles, trashBags, powerItems, flashlightItems, n);
      forall i, j | 0 <= i < j < |lanes|
        ensures lanes[i] < lanes[j]
      {
        assert lanes[i] == prefix[i];
        if j < |prefix| {
          assert lanes[j] == prefix[j];
        }
      }
      forall lane: nat
        ensures lane in lanes <==>
          lane < n && SpaceClear(obstacles, trashBags, powerItems, flashlightItems, LaneCenter(lane), 0.0)
      {
        assert lane in lanes <==> lane in prefix || lane in last;
      }
    }
  }

  /** The collection loop of the spawn step over lanes 0, 1, 2. */
  method AvailableLanes(obstacles: seq<Pos>, trashBags: seq<Pos>, powerItems: seq<Pos>,
                        flashlightItems: seq<Pos>) returns (lanes: seq<nat>)
    ensures lanes == ClearLanes(obstacles, trashBags, powerItems, flashlightItems)
    ensures forall i, j :: 0 <= i < j < |lanes| ==> lanes[i] < lanes[j]
    ensures forall lane: nat :: lane in lanes <==>
              lane < LaneCount && SpaceClear(obstacles, trashBags, powerItems, flashlightItems, LaneCenter(lane), 0.0)
  {
    lanes := [];
    var lane := 0;
    while lane < LaneCount
      invariant 0 <= lane <= LaneCount
      invariant lanes == ClearLanesBelow(obstacles, trashBags, powerItems, flashlightItems, lane)
    {
      var clear := IsSpaceClear(obstacles, trashBags, powerItems, flashlightItems, LaneCenter(lane), 0.0);
      if clear {
        lanes := lanes + [lane];
      }
      lane := lane + 1;
    }
    ClearLanesBelowSpec(obstacles, trashBags, powerItems, flashlightItems, LaneCount);
  }

  /** `max(10, int(30 / speed))`: Python's int() truncates, which for a
      positive quotient is the floor. */
  function SpawnInterval(speed: real): (n: int)
    requires speed > 0.0
    ensures n >= MinSpawnInterval
    ensures n == MinSpawnInterval || n as real <= 30.0 / speed
    ensures 30.0 / speed < n as real + 1.0
  {
    var q := (30.0 / speed).Floor;
    if q < MinSpawnInterval then MinSpawnInterval else q
  }

  /** The interval never grows as the speed rises. */
  lemma SpawnIntervalShrinks(slow: real, fast: real)
    requires 0.0 < slow <= fast
    ensures SpawnInterval(fast) <= SpawnInterval(slow)
  {
    assert 30.0 / fast <= 30.0 / slow by {
      assert (30.0 / fast) * fast == 30.0;
      assert (30.0 / slow) * slow == 30.0;
      assert (30.0 / fast) * slow <= (30.0 / fast) * fast;
    }
  }

  /** From speed 1 on, a spawn tick comes every 10 to 30 frames. */
  lemma SpawnIntervalRange(speed: real)
    requires speed >= 1.0
    ensures MinSpawnInterval <= SpawnInterval(speed) <= 30
  {
    SpawnIntervalShrinks(1.0, speed);
    assert SpawnInterval(1.0) == 30;
  }
}

=== FILE: walk_game.dfy ===
/** The game session: one `WalkGame` object holds the dog, the four entity
    lists, the bullets, every gauge and timer and the phase flags, and
    `Update` advances it by one frame. The keys and random values of the frame
    come in as parameters. */
module Game {
  import opened Entities
  import opened Spawning
  import opened Shots
  import opened DayNight
  import opened ClearSequence

  const PetStartX: real := 80.0
  const PetStartY: real := 100.0
  const PetStartVx: real := 2.0
  /** Walking and sprinting speeds. */
  const PetSpeed: real := 2.0
  const PetSpeedFast: real := 4.0

  const SpeedIncrease: real := 0.005
  const MaxSpeed: real := 4.0

  const BasePoopIncrease: real := 0.1
  const PoopAcceleration: real := 0.005
  const BaseHealAmount: real := 10.0
  const HealAcceleration: real := 0.001
  /** The poop gauge ends the game at this value. */
  const PoopFull: real := 100.0
  const StaminaFull: real := 100.0

  /** Timer lengths in frames. */
  const PowerDuration: int := 180
  const ReloadTime: int := 10
  const FlashlightDuration: int := 250

  /** Bullets leave 3 right of the dog and fly up 4 per frame. */
  const BulletOffset: real := 3.0
  const BulletSpeed: real := -4.0

  const ProgressStep: real := 0.5
  const MaxProgress: real := 500.0

  /** The two `game_over_reason` texts. */
  const HitObstacle: string := "Look ahead!!"
  const PoopOverflow: string := "Don't leave the poop behind!!"

  /** The keys of this frame: pressed this frame (`btnp`) for start (S),
      restart (R), dropping a mark (P) and shooting (SPACE); held (`btn`) for
      sprint (SHIFT), left and right. */
  datatype Keys = Keys(start: bool, restart: bool, drop: bool, shoot: bool,
                       sprint: bool, left: bool, right: bool)

  /** The values the random generator returns this frame; each is used only on
      the path that draws it: the lane among the clear ones, the category
      (`rndi(0, 20)`), the kind (`rndi(0, 1)`), the next day or night speed,
      and a clear-screen mark's size and place. */
  datatype Draws = Draws(lane: int, category: int, kind: int, skySpeed: real,
                         markSize: int, markX: int, markY: int)

  /** A decorative mark of the clear screen, `(x, y, size)`. */
  datatype Mark = Mark(x: int, y: int, size: int)

  predicate MarkOk(m: Mark)
  {
    3 <= m.size <= 6 && 0 <= m.x <= ScreenWidth - m.size && 0 <= m.y <= ScreenHeight - m.size
  }

  /** The ranges `rndi` and `rndf` draw from, with `clearLanes` the number of
      lanes the lane is drawn among. */
  predicate DrawsOk(d: Draws, clearLanes: nat)
  {
    && 0 <= d.lane && (clearLanes > 0 ==> d.lane < clearLanes)
    && 0 <= d.category <= 20
    && 0 <= d.kind <= 1
    && SpeedDrawn(d.skySpeed)
    && MarkOk(Mark(d.markX, d.markY, d.markSize))
  }

  /** The dog: `pet_x`, `pet_y`, `pet_vx` and `stamina_gauge`. */
  datatype Dog = Dog(petX: real, petY: real, petVx: real, staminaGauge: real)

  /** The four entity lists falling down the road. */
  datatype Road = Road(obstacles: seq<Pos>, trashBags: seq<Pos>, powerItems: seq<Pos>, flashlightItems: seq<Pos>)

  /** The quantities that grow over a game: `poop_gauge`,
      `poop_speed_multiplier`, `heal_multiplier`, `speed`, `score`,
      `progress`. */
  datatype Meters = Meters(poopGauge: real, poopSpeedMultiplier: real, healMultiplier: real,
                           speed: real, score: real, progress: real)

  /** The power-up and its gun: `has_power`, `power_timer`, `bullets`,
      `reload_timer`. */
  datatype Gun = Gun(hasPower: bool, powerTimer: int, bullets: seq<Bullet>, reloadTimer: int)

  /** `has_flashlight` and `fl_timer`. */
  datatype Light = Light(hasFlashlight: bool, flTimer: int)

  /** The clear sequence's door: `clear_door_y`, `door_state`,
      `door_open_width`, `clear_timer`, `show_clear_screen`. */
  datatype Door = Door(clearDoorY: int, doorState: int, doorOpenWidth: real, clearTimer: int,
                       showClearScreen: bool)

  /** `game_started`, `game_over`, `game_over_reason`, `is_cleared`,
      `title_pet_rotation`. */
  datatype Phase = Phase(gameStarted: bool, gameOver: bool, gameOverReason: string, isCleared: bool,
                         titlePetRotation: int)

  /** Every attribute of the game, grouped as the class holds them. */
  datatype Session = Session(dog: Dog, sky: Sky, road: Road, meters: Meters, gun: Gun, light: Light,
                             door: Door, phase: Phase, poopList: seq<Mark>)

  const StartDog: Dog := Dog(PetStartX, PetStartY, PetStartVx, StaminaFull)
  const EmptyRoad: Road := Road([], [], [], [])
  const StartMeters: Meters := Meters(0.0, 1.0, 1.0, 1.0, 0.0, 0.0)
  const Unarmed: Gun := Gun(false, 0, [], 0)
  const LightOff: Light := Light(false, 0)
  const Shut: Door := Door(-50, 0, 0.0, 0, false)
  const Title: Phase := Phase(false, false, "", false, 0)

  /** The game as its constructor leaves it. */
  const Start: Session := Session(StartDog, Morning, EmptyRoad, StartMeters, Unarmed, LightOff, Shut, Title, [])

  /** The game as `reset_game` leaves it: the start values, except the day
      and night speeds, which it does not touch. */
  function Restarted(s: Session): (r: Session)
    ensures r.sky.daySpeed == s.sky.daySpeed && r.sky.nightSpeed == s.sky.nightSpeed
  {
    Start.(sky := Morning.(daySpeed := s.sky.daySpeed, nightSpeed := s.sky.nightSpeed))
  }

  /** The door and the dog's position, as the clear sequence sees them. */
  function SceneOf(door: Door, dog: Dog): Scene
  {
    Scene(door.clearDoorY, door.doorState, door.doorOpenWidth, door.clearTimer, dog.petX, dog.petY,
          door.showClearScreen)
  }

  /** The clear-sequence frame: every list emptied, one tick of the door
      animation, and the dog moved by it. */
  function ClearedStep(s: Session): Session
  {
    var r := ClearStep(SceneOf(s.door, s.dog));
    s.(road := EmptyRoad,
       door := Door(r.doorY, r.doorState, r.openWidth, r.timer, r.show),
       dog := s.dog.(petX := r.petX, petY := r.petY))
  }

  /** The lanes whose top is clear of everything on the road. */
  ghost function Lanes(r: Road): seq<nat>
  {
    ClearLanes(r.obstacles, r.trashBags, r.powerItems, r.flashlightItems)
  }

  predicate MetersOk(m: Meters)
  {
    && m.poopGauge >= 0.0
    && m.poopSpeedMultiplier >= 1.0 && m.healMultiplier >= 1.0
    && 1.0 <= m.speed <= MaxSpeed + SpeedIncrease
    && m.score >= 0.0
    && m.progress >= 0.0
  }

  predicate GunOk(g: Gun)
  {
    0 <= g.reloadTimer <= ReloadTime && 0 <= g.powerTimer <= PowerDuration && (g.hasPower ==> g.powerTimer > 0)
  }

  predicate LightOk(l: Light)
  {
    0 <= l.flTimer <= FlashlightDuration && (l.hasFlashlight ==> l.flTimer > 0)
  }

  /** What holds of the game between frames: the dog between the walls (part
      of the door scene), the sky in its band, the gauges and timers in
      range, the goal flag exactly when progress reached the goal, and the
      door closed and the dog on its row until then. */
  predicate SessionOk(s: Session)
  {
    && SkyOk(s.sky)
    && MetersOk(s.meters)
    && GunOk(s.gun)
    && LightOk(s.light)
    && (s.phase.isCleared <==> s.meters.progress >= MaxProgress)
    && (s.phase.gameOver || s.phase.isCleared ==> s.phase.gameStarted)
    && SceneOk(SceneOf(s.door, s.dog))
    && (!s.phase.isCleared ==> s.door == Shut && s.dog.petY == PetStartY)
    && 0 <= s.phase.titlePetRotation < 32
    && (forall m :: m in s.poopList ==> MarkOk(m))
  }

  /** The start and every reset game satisfy the invariant, whatever came
      before the reset. */
  lemma RestartedOk(s: Session)
    requires SkyOk(s.sky)
    ensures SessionOk(Start)
    ensures SessionOk(Restarted(s))
    ensures !Restarted(s).phase.gameStarted && Restarted(s).road == EmptyRoad
  {
  }

  /** The clear-sequence frame keeps the invariant once the goal is reached. */
  lemma ClearedStepOk(s: Session)
    requires SessionOk(s) && s.phase.isCleared
    ensures SessionOk(ClearedStep(s))
    ensures ClearedStep(s).road == EmptyRoad
  {
  }

  /** Before the goal, the door scene is consistent wherever the dog is
      between the walls on its row. */
  lemma ShutOk(dog: Dog)
    requires LeftWall <= dog.petX <= RightWall && dog.petY == PetStartY
    ensures SceneOk(SceneOf(Shut, dog))
  {
  }

  /** On the dog's row, a touched entity is still on the screen, so no pass
      ever has to drop an entity both for leaving and for being collected. */
  lemma TouchedOnScreen(e: Pos, px: real)
    requires Touches(e, px, PetStartY)
    ensures !OffScreen(e)
  {
  }

  /** The gauges one frame on: the poop gauge rises by a growing amount, the
      heal multiplier grows, and the speed rises while it is below the cap. */
  function Raised(m: Meters): (r: Meters)
    ensures MetersOk(m) ==> MetersOk(r) && r.poopGauge > m.poopGauge
    ensures r.poopSpeedMultiplier == m.poopSpeedMultiplier + PoopAcceleration
    ensures r.poopGauge == m.poopGauge + BasePoopIncrease * r.poopSpeedMultiplier
    ensures r.healMultiplier == m.healMultiplier + HealAcceleration
    ensures m.speed < MaxSpeed ==> r.speed == m.speed + SpeedIncrease
    ensures m.speed >= MaxSpeed ==> r.speed == m.speed
    ensures r.score == m.score && r.progress == m.progress
  {
    var k := m.poopSpeedMultiplier + PoopAcceleration;
    m.(poopSpeedMultiplier := k, poopGauge := m.poopGauge + BasePoopIncrease * k,
       healMultiplier := m.healMultiplier + HealAcceleration,
       speed := if m.speed < MaxSpeed then m.speed + SpeedIncrease else m.speed)
  }

  /** The road after a spawn frame: one entity at the top of the drawn clear
      lane, its kind chosen by the category and kind draws. */
  ghost function Spawned(r: Road, speed: real, frame: nat, d: Draws): Road
    requires speed > 0.0 && DrawsOk(d, |Lanes(r)|)
  {
    var lanes := Lanes(r);
    if frame % SpawnInterval(speed) != 0 || lanes == [] then r
    else
      var c := LaneCenter(lanes[d.lane]);
      if d.category >= 1 then
        if d.kind == 0 then r.(obstacles := r.obstacles + [Pos(c, 0.0)])
        else r.(trashBags := r.trashBags + [Pos(c, 0.0)])
      else
        if d.kind == 0 then r.(powerItems := r.powerItems + [Pos(c + 2.0, 0.0)])
        else r.(flashlightItems := r.flashlightItems + [Pos(c + 2.0, 0.0)])
  }

  /** The stamina one frame on: sprinting spends 1 while any is left,
      otherwise it recovers 0.2 while below full. */
  function Rested(stamina: real, sprint: bool): (r: real)
    ensures sprint && stamina > 0.0 ==> r == stamina - 1.0
    ensures !(sprint && stamina > 0.0) ==> r >= stamina && (stamina < StaminaFull ==> r > stamina)
    ensures !(sprint && stamina > 0.0) && stamina < StaminaFull ==> r == stamina + 0.2
    ensures !(sprint && stamina > 0.0) && stamina >= StaminaFull ==> r == stamina
  {
    if sprint && stamina > 0.0 then stamina - 1.0
    else if stamina < StaminaFull then stamina + 0.2
    else stamina
  }

  /** The velocity once the arrow keys are read: LEFT wins over RIGHT, and a
      held key sets the sprint or walking speed in its direction. */
  function KeyVelocity(dog: Dog, sprint: bool, left: bool, right: bool): (v: real)
    ensures left ==> v < 0.0
    ensures !left && right ==> v > 0.0
    ensures !left && !right ==> v == dog.petVx
  {
    var stamina := Rested(dog.staminaGauge, sprint);
    var run := if sprint && stamina > 0.0 then PetSpeedFast else PetSpeed;
    if left then -run else if right then run else dog.petVx
  }

  /** One entity more on the road, at the top of lane l: an obstacle or a
      trash bag at the lane centre, or a power or flashlight item 2 right of
      it; the other three lists unchanged. */
  predicate AddsOne(r: Road, n: Road, l: nat)
  {
    l < LaneCount &&
    var c := LaneCenter(l);
    || n == r.(obstacles := r.obstacles + [Pos(c, 0.0)])
    || n == r.(trashBags := r.trashBags + [Pos(c, 0.0)])
    || n == r.(powerItems := r.powerItems + [Pos(c + 2.0, 0.0)])
    || n == r.(flashlightItems := r.flashlightItems + [Pos(c + 2.0, 0.0)])
  }

  /** Off a spawn frame, or with every lane blocked, the road is unchanged;
      otherwise exactly one entity appears, at the top of a lane whose top is
      clear of everything on the road. */
  lemma SpawnedSpec(r: Road, speed: real, frame: nat, d: Draws)
    requires speed > 0.0 && DrawsOk(d, |Lanes(r)|)
    ensures frame % SpawnInterval(speed) != 0 || Lanes(r) == [] ==> Spawned(r, speed, frame, d) == r
    ensures frame % SpawnInterval(speed) == 0 && Lanes(r) != [] ==>
      exists l: nat :: l < LaneCount && SpaceClear(r.obstacles, r.trashBags, r.powerItems, r.flashlightItems, LaneCenter(l), 0.0)
                    && AddsOne(r, Spawned(r, speed, frame, d), l)
  {
    var lanes := Lanes(r);
    if frame % SpawnInterval(speed) == 0 && lanes != [] {
      var l := lanes[d.lane];
      ClearLanesBelowSpec(r.obstacles, r.trashBags, r.powerItems, r.flashlightItems, LaneCount);
      assert l in lanes;
      assert AddsOne(r, Spawned(r, speed, frame, d), l);
    }
  }

  /** The dog one frame on: stamina, then the velocity from the arrow keys,
      then the move, bouncing off the walls. */
  function Walked(dog: Dog, sprint: bool, left: bool, right: bool): (r: Dog)
    ensures LeftWall <= r.petX <= RightWall && r.petY == dog.petY
    ensures left || right ==> Abs(r.petVx) == if sprint && r.staminaGauge > 0.0 then PetSpeedFast else PetSpeed
    ensures r.staminaGauge == Rested(dog.staminaGauge, sprint)
    ensures var v := KeyVelocity(dog, sprint, left, right);
      LeftWall <= dog.petX + v <= RightWall ==> r.petX == dog.petX + v && r.petVx == v
    ensures var v := KeyVelocity(dog, sprint, left, right);
      dog.petX + v < LeftWall ==> r.petX == LeftWall && r.petVx == -v
    ensures var v := KeyVelocity(dog, sprint, left, right);
      dog.petX + v > RightWall ==> r.petX == RightWall && r.petVx == -v
  {
    var v := KeyVelocity(dog, sprint, left, right);
    var x := dog.petX + v;
    Dog(if x < LeftWall then LeftWall else if x > RightWall then RightWall else x,
        dog.petY,
        if x < LeftWall || x > RightWall then -v else v,
        Rested(dog.staminaGauge, sprint))
  }

  /** The power and reload timers one frame on: the power lasts while its
      timer had more than one frame left. */
  function TimedGun(g: Gun): (r: Gun)
    ensures GunOk(g) ==> GunOk(r)
    ensures r.hasPower <==> g.hasPower && g.powerTimer > 1
    ensures r.bullets == g.bullets
    ensures r.powerTimer == if g.hasPower then g.powerTimer - 1 else g.powerTimer
    ensures r.reloadTimer == if g.reloadTimer > 0 then g.reloadTimer - 1 else g.reloadTimer
  {
    var t := if g.hasPower then g.powerTimer - 1 else g.powerTimer;
    g.(powerTimer := t, hasPower := g.hasPower && t > 0,
       reloadTimer := if g.reloadTimer > 0 then g.reloadTimer - 1 else g.reloadTimer)
  }

  /** The flashlight timer one frame on: the light stays on while its timer
      had more than one frame left. */
  function TimedLight(l: Light): (r: Light)
    ensures LightOk(l) ==> LightOk(r)
    ensures r.hasFlashlight <==> l.hasFlashlight && l.flTimer > 1
    ensures r.flTimer == if l.hasFlashlight then l.flTimer - 1 else l.flTimer
  {
    var t := if l.hasFlashlight then l.flTimer - 1 else l.flTimer;
    Light(l.hasFlashlight && t > 0, t)
  }

  /** The gun after n timer ticks. */
  function GunAfter(g: Gun, n: nat): Gun
  {
    if n == 0 then g else TimedGun(GunAfter(g, n - 1))
  }

  /** The flashlight after n timer ticks. */
  function LightAfter(l: Light, n: nat): Light
  {
    if n == 0 then l else TimedLight(LightAfter(l, n - 1))
  }

  /** An active power timer runs down by one per tick, and the power stays on
      until the tick the timer reaches 0. */
  lemma {:induction false} PowerRunsDown(g: Gun, n: nat)
    requires g.hasPower && 0 < g.powerTimer && n <= g.powerTimer
    ensures GunAfter(g, n).powerTimer == g.powerTimer - n
    ensures GunAfter(g, n).hasPower <==> n < g.powerTimer
  {
    if n > 0 {
      PowerRunsDown(g, n - 1);
    }
  }

  /** A picked-up power is on for exactly 180 timer ticks. */
  lemma PowerLasts(g: Gun, n: nat)
    requires n <= PowerDuration
    ensures GunAfter(g.(hasPower := true, powerTimer := PowerDuration), n).hasPower <==> n < PowerDuration
  {
    PowerRunsDown(g.(hasPower := true, powerTimer := PowerDuration), n);
  }

  /** An active flashlight timer runs down by one per tick, and the light
      stays on until the tick the timer reaches 0. */
  lemma {:induction false} LightRunsDown(l: Light, n: nat)
    requires l.hasFlashlight && 0 < l.flTimer && n <= l.flTimer
    ensures LightAfter(l, n).flTimer == l.flTimer - n
    ensures LightAfter(l, n).hasFlashlight <==> n < l.flTimer
  {
    if n > 0 {
      LightRunsDown(l, n - 1);
    }
  }

  /** A picked-up flashlight is on for exactly 250 timer ticks. */
  lemma FlashlightLasts(n: nat)
    requires n <= FlashlightDuration
    ensures LightAfter(Light(true, FlashlightDuration), n).hasFlashlight <==> n < FlashlightDuration
  {
    LightRunsDown(Light(true, FlashlightDuration), n);
  }

  /** The gun after the shoot key: with the power on and the gun reloaded, one
      bullet leaves from 3 right of the dog and the gun starts reloading. */
  function Fired(g: Gun, shoot: bool, px: real, py: real): (r: Gun)
    ensures GunOk(g) ==> GunOk(r)
    ensures r.hasPower == g.hasPower && r.powerTimer == g.powerTimer
    ensures |r.bullets| == |g.bullets| + 1 <==> g.hasPower && shoot && g.reloadTimer == 0
    ensures |r.bullets| >= |g.bullets| && r.bullets[..|g.bullets|] == g.bullets
    ensures |r.bullets| == |g.bullets| + 1 ==>
      r.reloadTimer == ReloadTime && r.bullets[|g.bullets|] == Bullet(px + BulletOffset, py, 0.0, BulletSpeed)
    ensures |r.bullets| == |g.bullets| ==> r == g
    ensures !(g.hasPower && shoot && g.reloadTimer == 0) ==> r == g
  {
    if g.hasPower && shoot && g.reloadTimer == 0
    then g.(bullets := g.bullets + [Bullet(px + BulletOffset, py, 0.0, BulletSpeed)], reloadTimer := ReloadTime)
    else g
  }

  /** The first part of a play frame: the sky, the gauges, spawning at the
      new speed and the dog's move. */
  ghost function WorldMoved(s: Session, keys: Keys, frame: nat, d: Draws): Session
    requires SkyOk(s.sky) && MetersOk(s.meters) && DrawsOk(d, |Lanes(s.road)|)
  {
    var m := Raised(s.meters);
    s.(sky := SkyStep(s.sky, d.skySpeed), meters := m, road := Spawned(s.road, m.speed, frame, d),
       dog := Walked(s.dog, keys.sprint, keys.left, keys.right))
  }

  /** The four entity passes at this frame's speed and dog position, then
      the poop check, whose reason wins over an obstacle's. */
  function EntitiesMoved(s: Session): Session
  {
    var r := s.road;
    var v := s.meters.speed;
    var x := s.dog.petX;
    var y := s.dog.petY;
    var gauge := Healed(s.meters.poopGauge, BaseHealAmount * s.meters.healMultiplier, Touched(r.trashBags, v, x, y));
    s.(road := Road(Survivors(r.obstacles, v, false, x, y), Survivors(r.trashBags, v, true, x, y),
                    Survivors(r.powerItems, v, true, x, y), Survivors(r.flashlightItems, v, true, x, y)),
       meters := s.meters.(poopGauge := gauge),
       gun := if Touched(r.powerItems, v, x, y) > 0 then s.gun.(hasPower := true, powerTimer := PowerDuration) else s.gun,
       light := if Touched(r.flashlightItems, v, x, y) > 0 then Light(true, FlashlightDuration) else s.light,
       phase :=
         if gauge >= PoopFull then s.phase.(gameOver := true, gameOverReason := PoopOverflow)
         else if Touched(r.obstacles, v, x, y) > 0 then s.phase.(gameOver := true, gameOverReason := HitObstacle)
         else s.phase)
  }

  /** The rest of a play frame: the score, the timers, firing, the bullet
      pass and the progress, which sets the goal flag at the goal. */
  function ShotsAndProgress(s: Session, shoot: bool): Session
  {
    var g := Fired(TimedGun(s.gun), shoot, s.dog.petX, s.dog.petY);
    var v := Resolve(g.bullets, s.road.obstacles);
    var p := s.meters.progress + ProgressStep;
    s.(meters := s.meters.(score := s.meters.score + s.meters.speed * 0.1, progress := p),
       gun := g.(bullets := v.bullets),
       light := TimedLight(s.light),
       road := s.road.(obstacles := v.obstacles),
       phase := if p >= MaxProgress then s.phase.(isCleared := true) else s.phase)
  }

  /** The entity passes keep the gauges and timers in range, only ever
      lower the poop gauge, leave the bullets and the reload alone, and end
      the game exactly when an obstacle touches the dog or the gauge is full,
      with the poop reason winning. */
  lemma EntitiesMovedOk(s: Session)
    requires MetersOk(s.meters) && GunOk(s.gun) && LightOk(s.light) && !s.phase.gameOver
    ensures var r := EntitiesMoved(s);
      && MetersOk(r.meters) && GunOk(r.gun) && LightOk(r.light)
      && r.meters == s.meters.(poopGauge := r.meters.poopGauge)
      && r.meters.poopGauge <= s.meters.poopGauge
      && r.gun.bullets == s.gun.bullets && r.gun.reloadTimer == s.gun.reloadTimer
      && r.phase == s.phase.(gameOver := r.phase.gameOver, gameOverReason := r.phase.gameOverReason)
      && (r.phase.gameOver <==>
            r.meters.poopGauge >= PoopFull || Touched(s.road.obstacles, s.meters.speed, s.dog.petX, s.dog.petY) > 0)
      && (r.meters.poopGauge >= PoopFull ==> r.phase.gameOverReason == PoopOverflow)
      && (r.phase.gameOver && r.meters.poopGauge < PoopFull ==> r.phase.gameOverReason == HitObstacle)
  {
  }

  /** The rest of a play frame keeps the gauges and timers in range, adds the
      score and the progress step, and raises the goal flag exactly at the
      goal. */
  lemma ShotsAndProgressOk(s: Session, shoot: bool)
    requires MetersOk(s.meters) && GunOk(s.gun) && LightOk(s.light) && s.meters.progress < MaxProgress
    ensures var r := ShotsAndProgress(s, shoot);
      && MetersOk(r.meters) && GunOk(r.gun) && LightOk(r.light)
      && r.meters == s.meters.(score := s.meters.score + s.meters.speed * 0.1,
                               progress := s.meters.progress + ProgressStep)
      && r.phase == s.phase.(isCleared := r.phase.isCleared)
      && (r.phase.isCleared <==> s.phase.isCleared || r.meters.progress >= MaxProgress)
      && r.dog == s.dog && r.sky == s.sky
  {
  }

  /** One frame of play, in the game's order. */
  ghost function PlayFrame(s: Session, keys: Keys, frame: nat, d: Draws): Session
    requires SkyOk(s.sky) && MetersOk(s.meters) && DrawsOk(d, |Lanes(s.road)|)
  {
    ShotsAndProgress(EntitiesMoved(WorldMoved(s, keys, frame, d)), keys.shoot)
  }

  class WalkGame {
    var dog: Dog
    var sky: Sky
    var road: Road
    var meters: Meters
    var gun: Gun
    var light: Light
    var door: Door
    var phase: Phase
    var poopList: seq<Mark>

    ghost function View(): Session
      reads this
    {
      Session(dog, sky, road, meters, gun, light, door, phase, poopList)
    }

    ghost predicate Valid()
      reads this
    {
      SessionOk(View())
    }

    constructor ()
      ensures View() == Start && Valid()
    {
      dog := StartDog;
      sky := Morning;
      road := EmptyRoad;
      meters := StartMeters;
      gun := Unarmed;
      light := LightOff;
      door := Shut;
      phase := Title;
      poopList := [];
      RestartedOk(Start);
    }

    /** `reset_game`: back to the title screen with every attribute at its
        start value; the day and night speeds keep their last draws. */
    method ResetGame()
      requires Valid()
      modifies this
      ensures Valid()
      ensures View() == Restarted(old(View()))
    {
      RestartedOk(View());
      dog := StartDog;
      road := EmptyRoad;
      meters := StartMeters;
      sky := sky.(cycle := 0.0, darkening := true);
      gun := Unarmed;
      light := LightOff;
      phase := Title;
      door := Shut;
      poopList := [];
    }

    /** The poop gauge rises by a growing amount, the heal multiplier grows,
        and the speed rises while it is below the cap. */
    method RaiseGauges()
      requires MetersOk(meters)
      modifies this`meters
      ensures meters == Raised(old(meters))
      ensures meters.poopGauge > old(meters.poopGauge)
      ensures MetersOk(meters)
    {
      var m := meters.poopSpeedMultiplier + PoopAcceleration;
      meters := meters.(poopSpeedMultiplier := m, poopGauge := meters.poopGauge + BasePoopIncrease * m,
                        healMultiplier := meters.healMultiplier + HealAcceleration);
      if meters.speed < MaxSpeed {
        meters := meters.(speed := meters.speed + SpeedIncrease);
      }
    }

    /** On a spawn frame, one entity appears at the top of one clear lane,
        chosen by the draws: an obstacle or a trash bag at the lane centre,
        or a power or flashlight item 2 right of it. */
    method Spawn(frame: nat, d: Draws)
      requires meters.speed > 0.0
      requires DrawsOk(d, |Lanes(road)|)
      modifies this`road
      ensures road == Spawned(old(road), meters.speed, frame, d)
      ensures |road.obstacles| + |road.trashBags| + |road.powerItems| + |road.flashlightItems| <=
              |old(road.obstacles)| + |old(road.trashBags)| + |old(road.powerItems)| + |old(road.flashlightItems)| + 1
      ensures frame % SpawnInterval(meters.speed) != 0 || Lanes(old(road)) == [] ==> road == old(road)
      ensures frame % SpawnInterval(meters.speed) == 0 && Lanes(old(road)) != [] ==>
        exists l: nat :: l < LaneCount && AddsOne(old(road), road, l)
          && SpaceClear(old(road.obstacles), old(road.trashBags), old(road.powerItems), old(road.flashlightItems),
                        LaneCenter(l), 0.0)
    {
      SpawnedSpec(road, meters.speed, frame, d);
      var interval := SpawnInterval(meters.speed);
      if frame % interval == 0 {
        var lanes := AvailableLanes(road.obstacles, road.trashBags, road.powerItems, road.flashlightItems);
        if lanes != [] {
          assert lanes[d.lane] in lanes;
          var c := LaneCenter(lanes[d.lane]);
          if d.category >= 1 {
            if d.kind == 0 {
              road := road.(obstacles := road.obstacles + [Pos(c, 0.0)]);
            } else {
              road := road.(trashBags := road.trashBags + [Pos(c, 0.0)]);
            }
          } else {
            if d.kind == 0 {
              road := road.(powerItems := road.powerItems + [Pos(c + 2.0, 0.0)]);
            } else {
              road := road.(flashlightItems := road.flashlightItems + [Pos(c + 2.0, 0.0)]);
            }
          }
        }
      }
    }

    /** Stamina, then the dog's velocity from the arrow keys, then its move
        between the walls, bouncing off them. */
    method MoveDog(sprint: bool, left: bool, right: bool)
      modifies this`dog
      ensures dog == Walked(old(dog), sprint, left, right)
      ensures LeftWall <= dog.petX <= RightWall
      ensures dog.petY == old(dog.petY)
    {
      if sprint && dog.staminaGauge > 0.0 {
        dog := dog.(staminaGauge := dog.staminaGauge - 1.0);
      } else if dog.staminaGauge < StaminaFull {
        dog := dog.(staminaGauge := dog.staminaGauge + 0.2);
      }
      var run := if sprint && dog.staminaGauge > 0.0 then PetSpeedFast else PetSpeed;
      if left {
        dog := dog.(petVx := -run);
      } else if right {
        dog := dog.(petVx := run);
      }
      dog := dog.(petX := dog.petX + dog.petVx);
      if dog.petX < LeftWall {
        dog := dog.(petX := LeftWall, petVx := -dog.petVx);
      }
      if dog.petX > RightWall {
        dog := dog.(petX := RightWall, petVx := -dog.petVx);
      }
    }

    /** Obstacles move down, those below the screen go, and one touching the
        dog ends the game. */
    method MoveObstacles()
      modifies this`road, this`phase
      ensures road == old(road).(obstacles := Survivors(old(road.obstacles), meters.speed, false, dog.petX, dog.petY))
      ensures var hit := Touched(old(road.obstacles), meters.speed, dog.petX, dog.petY) > 0;
        phase == if hit then old(phase).(gameOver := true, gameOverReason := HitObstacle) else old(phase)
    {
      var l := road.obstacles;
      var kept: seq<Pos> := [];
      var i := 0;
      while i < |l|
        invariant 0 <= i <= |l|
        invariant kept == Survivors(l[..i], meters.speed, false, dog.petX, dog.petY)
        invariant road == old(road)
        invariant phase == if Touched(l[..i], meters.speed, dog.petX, dog.petY) > 0
          then old(phase).(gameOver := true, gameOverReason := HitObstacle) else old(phase)
      {
        var e := Advance(l[i], meters.speed);
        if !OffScreen(e) {
          kept := kept + [e];
        }
        if Touches(e, dog.petX, dog.petY) {
          phase := phase.(gameOver := true, gameOverReason := HitObstacle);
        }
        assert l[..i + 1][..i] == l[..i];
        i := i + 1;
      }
      assert l[..|l|] == l;
      road := road.(obstacles := kept);
    }

    /** Trash bags move down; those below the screen go; each one the dog
        touches lowers the poop gauge by the current heal amount, not below
        0, and goes. */
    method MoveTrashBags()
      requires meters.poopGauge >= 0.0 && meters.healMultiplier >= 0.0
      modifies this`road, this`meters
      ensures road == old(road).(trashBags := Survivors(old(road.trashBags), meters.speed, true, dog.petX, dog.petY))
      ensures meters == old(meters).(poopGauge := Healed(old(meters.poopGauge), BaseHealAmount * meters.healMultiplier,
                                                         Touched(old(road.trashBags), meters.speed, dog.petX, dog.petY)))
      ensures 0.0 <= meters.poopGauge <= old(meters.poopGauge)
    {
      var l := road.trashBags;
      var amount := BaseHealAmount * meters.healMultiplier;
      var kept: seq<Pos> := [];
      var i := 0;
      while i < |l|
        invariant 0 <= i <= |l|
        invariant kept == Survivors(l[..i], meters.speed, true, dog.petX, dog.petY)
        invariant road == old(road)
        invariant meters == old(meters).(poopGauge := Healed(old(meters.poopGauge), amount, Touched(l[..i], meters.speed, dog.petX, dog.petY)))
      {
        var e := Advance(l[i], meters.speed);
        var touched := Touches(e, dog.petX, dog.petY);
        if touched {
          HealAgain(old(meters.poopGauge), amount, Touched(l[..i], meters.speed, dog.petX, dog.petY));
          meters := meters.(poopGauge := Max(meters.poopGauge - amount, 0.0));
        }
        if !OffScreen(e) && !touched {
          kept := kept + [e];
        }
        assert l[..i + 1][..i] == l[..i];
        i := i + 1;
      }
      assert l[..|l|] == l;
      road := road.(trashBags := kept);
    }

    /** Power items move down; those below the screen go; touching one
        grants the power for the full duration, and it goes. */
    method MovePowerItems()
      modifies this`road, this`gun
      ensures road == old(road).(powerItems := Survivors(old(road.powerItems), meters.speed, true, dog.petX, dog.petY))
      ensures var got := Touched(old(road.powerItems), meters.speed, dog.petX, dog.petY) > 0;
        gun == if got then old(gun).(hasPower := true, powerTimer := PowerDuration) else old(gun)
    {
      var l := road.powerItems;
      var kept: seq<Pos> := [];
      var i := 0;
      while i < |l|
        invariant 0 <= i <= |l|
        invariant kept == Survivors(l[..i], meters.speed, true, dog.petX, dog.petY)
        invariant road == old(road)
        invariant gun == if Touched(l[..i], meters.speed, dog.petX, dog.petY) > 0
          then old(gun).(hasPower := true, powerTimer := PowerDuration) else old(gun)
      {
        var e := Advance(l[i], meters.speed);
        var touched := Touches(e, dog.petX, dog.petY);
        if touched {
          gun := gun.(hasPower := true, powerTimer := PowerDuration);
        }
        if !OffScreen(e) && !touched {
          kept := kept + [e];
        }
        assert l[..i + 1][..i] == l[..i];
        i := i + 1;
      }
      assert l[..|l|] == l;
      road := road.(powerItems := kept);
    }

    /** Flashlight items move down; those below the screen go; touching one
        lights the flashlight for the full duration, and it goes. */
    method MoveFlashlightItems()
      modifies this`road, this`light
      ensures road == old(road).(flashlightItems := Survivors(old(road.flashlightItems), meters.speed, true, dog.petX, dog.petY))
      ensures var got := Touched(old(road.flashlightItems), meters.speed, dog.petX, dog.petY) > 0;
        light == if got then Light(true, FlashlightDuration) else old(light)
    {
      var l := road.flashlightItems;
      var kept: seq<Pos> := [];
      var i := 0;
      while i < |l|
        invariant 0 <= i <= |l|
        invariant kept == Survivors(l[..i], meters.speed, true, dog.petX, dog.petY)
        invariant road == old(road)
        invariant light == if Touched(l[..i], meters.speed, dog.petX, dog.petY) > 0
          then Light(true, FlashlightDuration) else old(light)
      {
        var e := Advance(l[i], meters.speed);
        var touched := Touches(e, dog.petX, dog.petY);
        if touched {
          light := Light(true, FlashlightDuration);
        }
        if !OffScreen(e) && !touched {
          kept := kept + [e];
        }
        assert l[..i + 1][..i] == l[..i];
        i := i + 1;
      }
      assert l[..|l|] == l;
      road := road.(flashlightItems := kept);
    }

    /** The power and flashlight timers count down while their effect is on,
        and each effect ends when its timer reaches 0; the reload timer counts
        down to 0. */
    method TickTimers()
      modifies this`gun, this`light
      ensures gun == TimedGun(old(gun)) && light == TimedLight(old(light))
    {
      if gun.hasPower {
        gun := gun.(powerTimer := gun.powerTimer - 1);
        if gun.powerTimer <= 0 {
          gun := gun.(hasPower := false);
        }
      }
      if light.hasFlashlight {
        light := light.(flTimer := light.flTimer - 1);
      }
      if light.flTimer <= 0 {
        light := light.(hasFlashlight := false);
      }
      if gun.reloadTimer > 0 {
        gun := gun.(reloadTimer := gun.reloadTimer - 1);
      }
    }

    /** With the power on, the shoot key pressed and the gun reloaded, a
        bullet leaves the dog upwards and the gun starts reloading. */
    method Fire(shoot: bool)
      modifies this`gun
      ensures gun == Fired(old(gun), shoot, dog.petX, dog.petY)
    {
      if gun.hasPower && shoot && gun.reloadTimer == 0 {
        gun := gun.(bullets := gun.bullets + [Bullet(dog.petX + BulletOffset, dog.petY, 0.0, BulletSpeed)],
                    reloadTimer := ReloadTime);
      }
    }

    /** Each bullet, in order, flies; above the screen it goes; otherwise the
        first obstacle it hits goes with it. */
    method MoveBullets()
      modifies this`gun, this`road
      ensures Volley(gun.bullets, road.obstacles) == Resolve(old(gun.bullets), old(road.obstacles))
      ensures gun == old(gun).(bullets := gun.bullets)
      ensures road == old(road).(obstacles := road.obstacles)
    {
      var shots := gun.bullets;
      var kept: seq<Bullet> := [];
      var i := 0;
      while i < |shots|
        invariant 0 <= i <= |shots|
        invariant Volley(kept, road.obstacles) == Resolve(shots[..i], old(road.obstacles))
        invariant road == old(road).(obstacles := road.obstacles)
        invariant gun == old(gun)
      {
        var f := Fly(shots[i]);
        if f.y >= BulletTop {
          var obs := road.obstacles;
          var j := 0;
          while j < |obs| && !Hits(f, obs[j])
            invariant 0 <= j <= |obs|
            invariant forall k :: 0 <= k < j ==> !Hits(f, obs[k])
          {
            j := j + 1;
          }
          assert j == FirstHit(f, obs);
          if j < |obs| {
            road := road.(obstacles := RemoveAt(obs, j));
          } else {
            kept := kept + [f];
          }
        }
        assert shots[..i + 1][..i] == shots[..i];
        i := i + 1;
      }
      assert shots[..|shots|] == shots;
      gun := gun.(bullets := kept);
    }

    /** The first part of a play frame: the sky, the gauges, spawning and
        the dog's move. */
    method MoveWorld(keys: Keys, frame: nat, d: Draws)
      requires SkyOk(sky) && MetersOk(meters)
      requires DrawsOk(d, |Lanes(road)|)
      modifies this`sky, this`meters, this`road, this`dog
      ensures View() == WorldMoved(old(View()), keys, frame, d)
      ensures MetersOk(meters)
      ensures LeftWall <= dog.petX <= RightWall && dog.petY == old(dog.petY)
    {
      sky := SkyStep(sky, d.skySpeed);
      RaiseGauges();
      Spawn(frame, d);
      MoveDog(keys.sprint, keys.left, keys.right);
    }

    /** The four entity passes and the poop check: the game ends when an
        obstacle touches the dog or the poop gauge is full. */
    method MoveEntities()
      requires MetersOk(meters) && GunOk(gun) && LightOk(light) && !phase.gameOver
      modifies this`road, this`meters, this`gun, this`light, this`phase
      ensures View() == EntitiesMoved(old(View()))
      ensures MetersOk(meters) && GunOk(gun) && LightOk(light)
      ensures meters == old(meters).(poopGauge := meters.poopGauge)
      ensures gun.bullets == old(gun.bullets) && gun.reloadTimer == old(gun.reloadTimer)
      ensures phase == old(phase).(gameOver := phase.gameOver, gameOverReason := phase.gameOverReason)
      ensures meters.poopGauge >= PoopFull ==> phase.gameOver && phase.gameOverReason == PoopOverflow
      ensures phase.gameOver && meters.poopGauge < PoopFull ==> phase.gameOverReason == HitObstacle
    {
      ghost var s := View();
      EntitiesMovedOk(s);
      MoveObstacles();
      MoveTrashBags();
      MovePowerItems();
      MoveFlashlightItems();
      if meters.poopGauge >= PoopFull {
        phase := phase.(gameOver := true, gameOverReason := PoopOverflow);
      }
    }

    /** The end of a play frame: the score, the timers, firing, the bullets
        and the progress. */
    method ShootAndAdvance(shoot: bool)
      requires MetersOk(meters) && GunOk(gun) && LightOk(light) && meters.progress < MaxProgress
      modifies this`road, this`meters, this`gun, this`light, this`phase
      ensures View() == ShotsAndProgress(old(View()), shoot)
      ensures MetersOk(meters) && GunOk(gun) && LightOk(light)
    {
      ghost var s := View();
      ShotsAndProgressOk(s, shoot);
      meters := meters.(score := meters.score + meters.speed * 0.1);
      TickTimers();
      Fire(shoot);
      MoveBullets();
      meters := meters.(progress := meters.progress + ProgressStep);
      if meters.progress >= MaxProgress {
        phase := phase.(isCleared := true);
      }
    }

    /** The second part of a play frame: the entity passes, the score, the
        timers, firing, the bullets and the progress. */
    method Collide(shoot: bool)
      requires MetersOk(meters) && GunOk(gun) && LightOk(light)
      requires !phase.gameOver && !phase.isCleared && meters.progress < MaxProgress
      modifies this`road, this`meters, this`gun, this`light, this`phase
      ensures View() == ShotsAndProgress(EntitiesMoved(old(View())), shoot)
      ensures MetersOk(meters) && GunOk(gun) && LightOk(light)
      ensures meters.speed == old(meters.speed)
      ensures meters.poopSpeedMultiplier == old(meters.poopSpeedMultiplier)
      ensures meters.healMultiplier == old(meters.healMultiplier)
      ensures meters.score == old(meters.score) + meters.speed * 0.1
      ensures meters.progress == old(meters.progress) + ProgressStep
      ensures phase.isCleared <==> meters.progress >= MaxProgress
      ensures meters.poopGauge >= PoopFull ==> phase.gameOver && phase.gameOverReason == PoopOverflow
      ensures phase.gameOver && meters.poopGauge < PoopFull ==> phase.gameOverReason == HitObstacle
      ensures phase.gameStarted == old(phase.gameStarted) && phase.titlePetRotation == old(phase.titlePetRotation)
    {
      ghost var s := View();
      EntitiesMovedOk(s);
      ShotsAndProgressOk(EntitiesMoved(s), shoot);
      MoveEntities();
      ShootAndAdvance(shoot);
    }

    /** One frame of play, in the game's order. */
    method PlayTick(keys: Keys, frame: nat, d: Draws)
      requires Valid() && phase.gameStarted && !phase.gameOver && !door.showClearScreen && !phase.isCleared
      requires DrawsOk(d, |Lanes(road)|)
      modifies this`dog, this`sky, this`road, this`meters, this`gun, this`light, this`phase
      ensures Valid()
      ensures View() == PlayFrame(old(View()), keys, frame, d)
      ensures sky == SkyStep(old(sky), d.skySpeed)
      ensures meters.speed == if old(meters.speed) < MaxSpeed then old(meters.speed) + SpeedIncrease else old(meters.speed)
      ensures meters.poopSpeedMultiplier == old(meters.poopSpeedMultiplier) + PoopAcceleration
      ensures meters.healMultiplier == old(meters.healMultiplier) + HealAcceleration
      ensures meters.score == old(meters.score) + meters.speed * 0.1
      ensures meters.progress == old(meters.progress) + ProgressStep
      ensures phase.isCleared <==> meters.progress >= MaxProgress
      ensures meters.poopGauge >= PoopFull ==> phase.gameOver && phase.gameOverReason == PoopOverflow
      ensures phase.gameOver && meters.poopGauge < PoopFull ==> phase.gameOverReason == HitObstacle
      ensures phase.gameStarted && phase.titlePetRotation == old(phase.titlePetRotation)
      ensures dog.petY == old(dog.petY)
    {
      MoveWorld(keys, frame, d);
      Collide(keys.shoot);
      ShutOk(dog);
    }

    /** One frame of the clear sequence: the road is emptied and the door
        animation advances, moving the dog into the door. */
    method ClearTick()
      requires Valid() && phase.isCleared
      modifies this`road, this`door, this`dog
      ensures Valid()
      ensures View() == ClearedStep(old(View()))
    {
      ClearedStepOk(View());
      road := EmptyRoad;
      var r := ClearStep(SceneOf(door, dog));
      door := Door(r.doorY, r.doorState, r.openWidth, r.timer, r.show);
      dog := dog.(petX := r.petX, petY := r.petY);
    }

    /** `update`: one frame, dispatched on the phase: title, game over,
        clear screen, clear sequence, play. */
    method Update(keys: Keys, frame: nat, d: Draws)
      requires Valid()
      requires DrawsOk(d, |Lanes(road)|)
      modifies this
      ensures Valid()
      ensures !old(phase.gameStarted) ==>
        View() == old(View()).(phase := old(phase).(titlePetRotation := (old(phase.titlePetRotation) + 1) % 32,
                                                    gameStarted := keys.start))
      ensures old(phase.gameStarted) && old(phase.gameOver) ==>
        View() == if keys.restart then Restarted(old(View())) else old(View())
      ensures old(phase.gameStarted) && !old(phase.gameOver) && old(door.showClearScreen) ==>
        var base := if keys.restart then Restarted(old(View())) else old(View());
        View() == base.(poopList := base.poopList + if keys.drop then [Mark(d.markX, d.markY, d.markSize)] else [])
      ensures old(phase.gameStarted) && !old(phase.gameOver) && !old(door.showClearScreen) && old(phase.isCleared) ==>
        View() == ClearedStep(old(View()))
      ensures old(phase.gameStarted) && !old(phase.gameOver) && !old(door.showClearScreen) && !old(phase.isCleared) ==>
        && View() == PlayFrame(old(View()), keys, frame, d)
        && meters.progress == old(meters.progress) + ProgressStep
        && (phase.isCleared <==> meters.progress >= MaxProgress)
        && (meters.poopGauge >= PoopFull ==> phase.gameOver)
        && sky == SkyStep(old(sky), d.skySpeed)
        && door == old(door) && poopList == old(poopList)
    {
      if !phase.gameStarted {
        phase := phase.(titlePetRotation := (phase.titlePetRotation + 1) % 32);
        if keys.start {
          phase := phase.(gameStarted := true);
        }
        return;
      }
      if phase.gameOver {
        if keys.restart {
          ResetGame();
        }
        return;
      }
      if door.showClearScreen {
        if keys.restart {
          ResetGame();
        }
        if keys.drop {
          poopList := poopList + [Mark(d.markX, d.markY, d.markSize)];
        }
        return;
      }
      if phase.isCleared {
        ClearTick();
        return;
      }
      PlayTick(keys, frame, d);
    }
  }
}
